=== FILE: README.md ===
# debank wallet ledger, modelled in Dafny

This project models the double-entry wallet ledger of the debank Go service.

- **Deposits** move kobo from the `sys_reserve` system account to a user's account.
- **Withdrawals** move kobo the other way, and only if the user's balance covers the amount.
- **Postings.** Every committed operation is one transaction with two postings of opposite sign.
- **Balances.** A database trigger adds each posting's amount to its account's balance.
- **Idempotency.** A client-chosen idempotency key makes a retried request return the original transaction instead of posting again.

The database is an immutable value, `Ledger.State`. It holds account balances, the owner of each account, the reserve account, the transactions, the postings, and the index from idempotency key to transaction id.

- **Trigger.** `Ledger.ApplyPosting` plays the trigger's part.
- **Commit and rollback.** A unit of work either returns the new state, or the old one when its deferred rollback fires.
- **Failing calls.** Every database call that can fail is named by a `Ledger.Step`. Each operation takes `fault`: the one call that fails in this run, or none.
- **Go errors.** Errors are values: a package's sentinel, a `%w` wrapper, or an opaque driver error. `errors.Is` is the recursive `Errors.Is`, and `Errors.IsIffRoot` proves it equals "the root of the chain is that sentinel".

The repository holds two versions of the service layer, and both are modelled:

- **`WalletService`** is the newer `internal/service` package, which its unit tests exercise. It checks the key, then the amount, then looks the key up. It runs the unit of work itself, holding the user's row lock.
- **`LiveWalletService`** is the `internal/services` package that `cmd/server/main.go` wires to the handler. It checks the key, looks the key up, and only then validates the amount. It delegates to `Repository` and wraps the repository's errors once more.

`Versions` proves where the two agree and where they part.

Other modules:

- `Handler` models the HTTP status table and the user-id rule.
- `Auth` models `maskEmail`, login-identifier classification and the lockout rule.
- `Models`, `Users` and `Verification` model the small predicates of the model structs.
- `Clock` passes the current time as a parameter, in nanoseconds.
- `GoInt` models 64-bit `int` and `strconv`'s decimal text.

Ledger invariants (`Ledger.Valid`):

- **Well-formed.** Ids are serial. Keys and transactions are in one-to-one correspondence. Every posting names an existing account and transaction.
- **Balanced.** The postings of every transaction sum to zero.
- **Consistent.** Every balance equals the sum of its account's postings.
- **Solvent.** No user balance is negative.

Every operation of both services preserves `Valid` on every path, including each injected failure. The repository's operations preserve it for the non-negative amounts every caller passes, since the services validate the amount first.

## Model

| member | source | states |
|---|---|---|
| Errors.IsIffRoot | internal/handlers/wallet_handler.go:189-218 | `errors.Is(err, sentinel)` holds exactly when the innermost error of the `%w` chain is that sentinel |
| Errors.WrappingKeepsIdentity | internal/service/wallet_service.go:409-414 | wrapping with `%w` keeps every sentinel identity and the root |
| Models.StatusPredicatesExclusive | internal/models/transaction.go:34-46 | at most one of IsPending/IsPosted/IsFailed holds; a reversed transaction satisfies none |
| Models.CreditDebitExclusive | internal/models/transaction.go:59-66 | no posting is both credit and debit; exactly the non-zero postings are one of the two |
| Models.ConstantsDistinct | internal/models/transaction.go:73-88 | the six kind constants and the four status constants are pairwise distinct |
| Users.ToPublic | internal/models/user.go:45-65 | the public view copies the identity and profile fields, and has username and last-login exactly when the stored columns are set |
| Users.ToPublicHidesSecrets | internal/models/user.go:13-65 | changing the password hash, PIN hash, attempt counter, lock, active flag or update time never changes the public view |
| Users.HasUsernameIsPublic | internal/models/user.go:57-70 | a user with a username shows that non-empty username publicly |
| Users.LockWindow | internal/models/user.go:78-80 | a lock holds at every instant before its end and no longer at its end |
| Users.SessionWindow | internal/models/user.go:99-101 | an unrevoked session is valid strictly before its expiry and not at it |
| Verification.ValidityMatchesMaxAttempts | internal/models/verification.go:37-39 | a code is valid iff unexpired, unused and under `OTPMaxAttempts` attempts; the literal 5 agrees with the constant |
| Verification.ValidityWindow | internal/models/verification.go:27-39 | a fresh code is valid up to and including ten minutes after issue and invalid afterwards |
| Verification.ValidityIsMonotone | internal/models/verification.go:27-39 | validity, once lost by time, never returns: valid now implies valid at every earlier instant |
| Ledger.PostDoubleEntry | internal/repository/wallet_repository.go:140-180 | a commit appends one posted transaction with the key, a debit and a credit of the amount; those two balances move by exactly the amount and no other account changes |
| Ledger.PostDoubleEntryPreservesValid | internal/repository/wallet_repository.go:155-180 | a double entry with a fresh key keeps ids serial, every transaction summing to zero, balances equal to their postings, and user balances non-negative |
| Repository.CheckIdempotency | internal/repository/wallet_repository.go:61-74 | (0, false) for an absent key, (its id, true) for a present one, whose transaction carries the key; a failed query is wrapped |
| Repository.GetAccountByUserID | internal/repository/wallet_repository.go:28-41 | the user's account row, the repository's not-found sentinel when the user has none, or a wrapped failure |
| Repository.Deposit | internal/repository/wallet_repository.go:77-204 | every failure leaves the ledger unchanged; a known key replays without writing; a missing account is not-found; otherwise the reserve is debited and the user credited, and the balance reported is the user's balance after both postings |
| Repository.Withdraw | internal/repository/wallet_repository.go:207-300 | as for deposit, in the other direction; a short balance returns insufficient-balance with the unchanged balance and writes nothing; a committed balance is never negative |
| Repository.DepositPreservesValid | internal/repository/wallet_repository.go:77-204 | every deposit path keeps the ledger invariants |
| Repository.WithdrawPreservesValid | internal/repository/wallet_repository.go:207-300 | every withdrawal path keeps the ledger invariants, solvency included |
| Repository.DepositRetryIsReplay | internal/repository/wallet_repository.go:88-113 | retrying a committed deposit with the same key returns the same id and balance and writes nothing |
| Repository.WithdrawRetryIsReplay | internal/repository/wallet_repository.go:215-225 | retrying a committed withdrawal with the same key returns the same id and balance and takes no more money |
| Amounts.Check | internal/service/wallet_service.go:405-442 | no error exactly for amounts within the bounds; non-positive is the bare invalid-amount sentinel; below or above are the wrapped too-small or too-large sentinels |
| WalletService.ValidateDepositAmount | internal/service/wallet_service.go:405-416 | accepts exactly 10000..100000000, rejecting non-positive, too-small and too-large with their sentinels in that order |
| WalletService.ValidateWithdrawAmount | internal/service/wallet_service.go:418-429 | the same bounds and order for withdrawals |
| WalletService.ValidateTransferAmount | internal/service/wallet_service.go:431-442 | the same bounds and order for transfers |
| WalletService.DepositBoundaries | internal/service/wallet_service_test.go:753-778 | both exact bounds pass, one past either bound fails, zero and negative amounts are invalid |
| WalletService.IdempotentResponse | internal/service/wallet_service.go:88-97 | a recorded key answers with its transaction id, status posted and the user's current balance |
| WalletService.ExecuteDeposit | internal/service/wallet_service.go:124-194 | a failure writes nothing; a commit is the reserve debit and user credit, and the balance returned is the locked balance plus the amount, which is what the ledger now holds |
| WalletService.ExecuteWithdraw | internal/service/wallet_service.go:245-313 | a short locked balance is refused before anything is written; a commit returns the locked balance minus the amount, never negative |
| WalletService.Deposit | internal/service/wallet_service.go:75-122 | the key is checked first and the amount second, both before any lookup; a recorded key replays without writing; only a fresh key with a valid amount writes, and with no failure, a known user and a reserve account it commits the double entry; a failure, the commit included, leaves the ledger as it was; the negative-balance branch cannot fire on a solvent ledger |
| WalletService.Withdraw | internal/service/wallet_service.go:200-243 | as for deposit, committing whenever the balance covers the amount and nothing fails; insufficient balance is refused with nothing written; the reported balance is never negative, so the negative-balance branch is unreachable |
| WalletService.DepositPreservesValid | internal/service/wallet_service.go:124-194 | every deposit path keeps the ledger invariants |
| WalletService.WithdrawPreservesValid | internal/service/wallet_service.go:245-313 | every withdrawal path keeps the ledger invariants |
| WalletService.DepositRetryIsReplay | internal/service/wallet_service.go:89-97 | a retried deposit returns the first one's id and balance and posts nothing |
| WalletService.WithdrawRetryIsReplay | internal/service/wallet_service.go:212-220 | a retried withdrawal returns the first one's id and balance and takes no more money |
| WalletService.NormalizePageAsWritten | internal/service/wallet_service.go:351-358 | paging as written: page below 1 becomes 1, size outside 1..100 becomes 20, and the offset is the wrapped 64-bit product |
| WalletService.PageOffsetOverflows | internal/service/wallet_service.go:358 | page 10^17 at 100 rows a page gives a negative offset |
| WalletService.NormalizePage | internal/service/wallet_service.go:351-358 | the same normalisation with an offset that is never negative and equals the rows on the earlier pages whenever that fits in 64 bits |
| WalletService.PagingAgreesWithoutOverflow | internal/service/wallet_service.go:351-358 | without overflow the corrected paging and the paging as written agree |
| WalletService.PagingTilesHistory | internal/service/wallet_service.go:351-358 | normalising is idempotent and each page starts where the previous one ends |
| LiveWalletService.ValidateDepositAmount | internal/services/wallet_services.go:197-211 | accepts exactly 10000..100000000, with this package's sentinels, non-positive first |
| LiveWalletService.ValidateWithdrawAmount | internal/services/wallet_services.go:214-228 | the same bounds and order for withdrawals |
| LiveWalletService.TranslateError | internal/services/wallet_services.go:246-258 | adds exactly one wrapper, so every `errors.Is` answer is unchanged; not-found and insufficient-balance get their own context |
| LiveWalletService.Replay | internal/services/wallet_services.go:56-71 | a recorded key answers with its id, status posted and the current balance, or the translated not-found |
| LiveWalletService.Finish | internal/services/wallet_services.go:79-107 | a repository error is translated with the ledger unchanged; a negative balance is reported as an error, never as success |
| LiveWalletService.Deposit | internal/services/wallet_services.go:38-108 | the key is checked first; a recorded key replays before the amount is looked at; a fresh key with an invalid amount is refused unwritten; with no failure, a known user and a reserve account the double entry commits; a commit is the repository's double entry; every error roots outside the newer service's sentinels |
| LiveWalletService.Withdraw | internal/services/wallet_services.go:111-180 | as for deposit, committing whenever the balance covers the amount and nothing fails; a short balance surfaces the repository's insufficient-balance sentinel with nothing written; the negative-balance branch is unreachable |
| LiveWalletService.GetBalance | internal/services/wallet_services.go:183-194 | the user's balance, or the translated not-found |
| LiveWalletService.ReplayIgnoresAmount | internal/services/wallet_services.go:49-77 | for a recorded key, requests differing only in amount get identical replies |
| LiveWalletService.PostDeposit | internal/services/wallet_services.go:79-108 | a validated fresh deposit: with no failure, a known user and a reserve account it commits the repository's double entry and reports the new balance, refusing a negative one, which a solvent ledger never reaches; a missing user or a failure writes nothing and is translated |
| LiveWalletService.PostWithdraw | internal/services/wallet_services.go:151-180 | a validated fresh withdrawal: it commits exactly when nothing fails and the balance covers the amount; otherwise nothing is written and the error is translated |
| LiveWalletService.DepositPreservesValid | internal/services/wallet_services.go:79-90 | every live deposit path keeps the ledger invariants |
| LiveWalletService.WithdrawPreservesValid | internal/services/wallet_services.go:151-162 | every live withdrawal path keeps the ledger invariants |
| LiveWalletService.DepositRetryIsReplay | internal/services/wallet_services.go:49-77 | a retried live deposit returns the first one's id and balance and credits nothing more |
| LiveWalletService.WithdrawRetryIsReplay | internal/services/wallet_services.go:122-143 | a retried live withdrawal returns the first one's id and balance and takes no more money |
| Versions.SameValidation | internal/services/wallet_services.go:197-228 | both services accept exactly the same amounts |
| Versions.DepositsAgreeWhenFresh | internal/services/wallet_services.go:73-107 | for a fresh key and valid amount, both deposits leave the same ledger and succeed with the same response or both fail |
| Versions.WithdrawalsAgreeWhenFresh | internal/services/wallet_services.go:145-179 | the same for withdrawals |
| Versions.ReplayedKeyWithInvalidAmount | internal/services/wallet_services.go:49-77 | a recorded key with an invalid amount is a validation error in the newer service and a replay in the live one |
| Handler.MapServiceError | internal/handlers/wallet_handler.go:189-218 | 400 exactly for the five validation sentinels, 404 for not-found, 422 for insufficient balance, 500 for everything else, all read through any wrapping |
| Handler.MappingDependsOnKind | internal/handlers/wallet_handler.go:189-218 | the status and message depend only on which of the service's sentinels the error carries |
| Handler.MappingIgnoresWrapping | internal/handlers/wallet_handler.go:192-197 | a `%w`-wrapped validation error maps like the bare sentinel |
| Handler.MapErrorByKind | internal/handlers/wallet_handler.go:189-218 | the table read by sentinel kind from any package; agrees with the table as written on every error of the newer service |
| Handler.Status | internal/handlers/wallet_handler.go:167-186 | 200 exactly for a success; otherwise the status `mapServiceError` gives the error, so 500 for every error that carries none of the newer service's sentinels |
| Handler.StatusByKind | internal/handlers/wallet_handler.go:180-218 | the endpoint's status with the table read by kind; it agrees with `Status` on every error that carries one of the newer service's sentinels |
| Handler.LiveErrorsAllMapTo500 | internal/handlers/wallet_handler.go:189-218 | every error the live service stack produces maps to 500 under the table as written |
| Handler.LiveInsufficientBalance | internal/handlers/wallet_handler.go:208-209 | a live withdrawal refused for insufficient balance is answered 500 by the endpoint as written, and would be 422 with the table read by kind |
| Handler.ParseUserID | internal/handlers/wallet_handler.go:154-164 | accepted exactly when the text is a 64-bit decimal number and that number is positive |
| Handler.ParseUserIDAcceptsPositive | internal/handlers/wallet_handler.go:154-164 | over decimal spellings of 64-bit ids, exactly the positive ones pass, each as itself |
| GoInt.Atoi | internal/handlers/wallet_handler.go:122-123 | no error exactly for an optional sign and then decimal digits whose signed value fits in 64 bits, with that value; a digit run after the sign that passes 2^64 - 1 is a range error even when a non-digit follows it; otherwise a non-digit, or nothing after the sign, is a syntax error; a syntax error comes with 0 and a range error with the 64-bit bound on the sign's side |
| GoInt.AtoiOverflowsBeforeJunk | internal/handlers/wallet_handler.go:122-123 | an overflowing digit run followed by anything is a range error carrying the 64-bit maximum, or the minimum under a minus sign |
| GoInt.AtoiJunkAfterDigits | internal/handlers/wallet_handler.go:122-123 | a digit run within 64 unsigned bits followed by a non-digit is a syntax error carrying 0 |
| GoInt.AtoiTrailingJunkByLength | internal/handlers/wallet_handler.go:122-123 | twenty digits led by a 9 and then an 'x' are a range error; nineteen digits and an 'x' are a syntax error |
| GoInt.AtoiOfItoa | internal/handlers/wallet_handler.go:156 | reading back the decimal spelling of any 64-bit value gives the value |
| GoInt.AtoiRefusesOutOfRange | internal/handlers/wallet_handler.go:156 | the decimal spelling of a value outside 64 bits is a range error carrying the bound on its side |
| Handler.HistoryPaging | internal/handlers/wallet_handler.go:121-126 | `page` and `per_page` reach the paging with their parse errors discarded: unreadable text is page 1 at offset 0 or 20 rows a page, and readable text is paged as the service does |
| Handler.HistoryPagingDefaults | internal/handlers/wallet_handler.go:122-123 | the default texts "1" and "20" give the first page of twenty rows at offset 0 |
| Handler.OversizedPageWrapsOffset | internal/handlers/wallet_handler.go:122-126 | a twenty-digit page led by a 9 is not refused: it becomes the 64-bit maximum and, at 100 rows a page, a negative offset |
| Auth.SplitCount | internal/service/auth_service.go:566-569 | splitting gives one more part than there are separators, so two parts means exactly one '@' |
| Auth.SplitPartsFree | internal/service/auth_service.go:566-572 | no part holds the separator |
| Auth.JoinSplit | internal/service/auth_service.go:566-572 | joining the parts with the separator gives back the input |
| Auth.SplitAddress | internal/service/auth_service.go:566-572 | an address with one '@' splits into exactly its local part and domain |
| Auth.MaskEmailAsWritten | internal/service/auth_service.go:565-579 | `maskEmail` as written fails exactly when there is one '@' and nothing before it |
| Auth.MaskEmail | internal/service/auth_service.go:565-579 | agrees with the code wherever it does not panic, leaves text without exactly one '@' unchanged, and masks an empty local part as "***@" + domain where the code panics |
| Auth.MaskOfAddress | internal/service/auth_service.go:571-578 | `l@d` masks to first byte + "***" + "@" + d for a local part of one or two bytes, and adds the last byte for longer ones |
| Auth.MaskLeavesNonAddresses | internal/service/auth_service.go:566-569 | text with no '@' or several is returned unchanged |
| Auth.MaskHidesInterior | internal/service/auth_service.go:578 | local parts longer than two bytes that share first and last bytes mask identically |
| Auth.MaskEmailPanicsOnEmptyLocalPart | internal/service/auth_service.go:574-575 | "@x.com" reaches the out-of-range slice |
| Auth.Trim | internal/service/auth_service.go:277 | the result is the slice of the input left after removing only characters of the given set from both ends, and it has none at either end; `strings.TrimSpace` is this with Unicode white space |
| Auth.TrimIdempotent | internal/service/auth_service.go:277 | trimming twice is trimming once |
| Auth.ClassifyIdentifier | internal/service/auth_service.go:277-289 | a leading '@' looks up the rest as a username; a leading '+' or ten or more UTF-8 bytes is a phone lookup; anything else is a username lookup |
| Auth.Login | internal/service/auth_service.go:272-343 | not-found reads as invalid credentials; then locked, then inactive, then the password; a wrong password counts a failure and, from four earlier ones, locks for thirty minutes; a correct password on an unlocked, active user succeeds exactly when the update succeeds (token generation aside), resetting the counter and the lock and replying with the user as read before the update; a failed update reports itself and leaves the user as read |
| Auth.ClassifyIgnoresSurroundingSpace | internal/service/auth_service.go:277-289 | white space around an identifier never changes the lookup: the identifier is trimmed before it is classified |
| Auth.ToDto | internal/service/auth_service.go:530-547 | the reply view copies the identity and profile columns, and the username exactly when it is set |
| Auth.ToDtoIgnoresLoginColumns | internal/service/auth_service.go:530-547 | the reply view does not depend on the attempt counter, the lock, the last-login instant, the update time or the password hash |
| Auth.FifthFailureLocks | internal/service/auth_service.go:309-321 | from a clean account, four wrong passwords are invalid credentials and the fifth locks it, after which even the right password is refused for thirty minutes |

## Findings

| source | as written | input that shows it | evidently intended | confidence | as-written member | corrected member |
|---|---|---|---|---|---|---|
| internal/handlers/wallet_handler.go:192-213 | the status table matches only the `internal/service` sentinels, but cmd/server/main.go:35-36 hands the handler the `internal/services` service, whose errors root in that package's sentinels and the repository's | a withdrawal whose amount exceeds the user's balance, through the wired service | 422 "Insufficient balance" (and 400/404 for validation and not-found) | medium, not executed; the wiring also mismatches the handler's interface at compile time | Handler.LiveInsufficientBalance | Handler.MapErrorByKind |
| internal/service/auth_service.go:574-575 | `username[0:1]` on the local part, which may be empty | the e-mail "@x.com" | a mask such as "***@x.com" instead of a run-time panic | high, not executed | Auth.MaskEmailPanicsOnEmptyLocalPart | Auth.MaskEmail |
| internal/service/wallet_service.go:358 | `offset := (page - 1) * perPage` in 64-bit `int`, with `page` taken unchecked from the query string (internal/handlers/wallet_handler.go:122) | `page=100000000000000000`, `per_page=100` | a non-negative offset | high, not executed | WalletService.PageOffsetOverflows | WalletService.NormalizePage |

## Tests that disagree with the implementation

These are signature-level mismatches, so they cannot be stated as properties of the model:

- internal/service/wallet_service_test.go calls `service.Deposit(ctx, req)` with a `models.DepositRequest` carrying the user id. internal/service/wallet_service.go:75 declares `Deposit(ctx, userID, dto.DepositRequest)`.
- The test file's mock repository has no `GetAccountByUserIDForUpdate` or `GetSystemAccountForUpdate`, which the service's unit of work calls.
- The Transfer tests (internal/service/wallet_service_test.go:407-546) have no implementation to run against.

Where the tests' intent matches the implementation, the model follows it: the validation order, the replay's id and balance, and commit failure leaving nothing behind.

## Left out

- Transfer: no implementation exists in the source. Its constants and `validateTransferAmount` are modelled; nothing else is.
- Postgres and pgx plumbing: SQL text, row scanning and connection handling are not modelled. The balance trigger is `Ledger.ApplyPosting`. Commit and rollback are "new state or old state".
- Row locking and concurrency (`FOR UPDATE`, the load test): operations are modelled one at a time.
- Logging, timing, and the "₦%.2f" messages and `BalanceNGN`/`AmountNGN` displays: these are floating-point text with no bearing on the ledger.
- Response DTO assembly in the newer service's `GetBalance` and `GetTransactionHistory`: only the paging arithmetic is modelled. The history query and count are database reads.
- JWT generation, bcrypt password and PIN checks, and OTP generation: the password check's outcome is a parameter of `Auth.Login`.
- E-mail sending, configuration, health handlers, the user, verification and OTP repositories, and the DTO-only model files.
- Repository.Deposit: balances are unbounded integers, so 64-bit overflow of a balance is not modelled. The same holds for every other balance computation.
- WalletService.IdempotentResponse: `buildIdempotentResponse`, `isNoRowsError` and `isAccountNotFoundError` are not part of this model. The replay is taken to report the recorded id as posted with the user's current balance. A missing row is taken to be the not-found case.
- WalletService.ExecuteDeposit: the error `GetSystemAccountForUpdate` returns for a missing `sys_reserve` row is modelled as a driver "no rows" error, wrapped as the code wraps it.
- Repository.DepositPreservesValid: requires a non-negative amount. The repository's `Deposit` does not check the amount itself, and a negative one would leave the user's balance negative; both services validate the amount before calling it.
- Auth.ToDto: `CreatedAt` is formatted as RFC 3339 text in the source; the model keeps the instant.
- Auth.Login: the results of `IncrementFailedLogins` and `LockAccount` are discarded by the code. Both writes are modelled as succeeding. A `GenerateJWT` failure after the login has been recorded (auth_service.go:329-332) is not modelled: the model's login then succeeds where the code returns an error with the new login time and reset counter already written.
- Auth.ClassifyIdentifier: strings are sequences of Unicode code points here. Byte strings that are not valid UTF-8 are not represented. `Auth.MaskEmail` works on bytes, as Go slices them.
- Errors: error messages are not compared. Only sentinel identity and wrapping depth are modelled.
- A transaction id is consumed even by a rolled-back insert in Postgres. The model's ids are dense, so it does not predict the gaps.

=== FILE: amounts.dfy ===
/** The three-way amount check both wallet services apply, in the same order:
    non-positive first, then below the minimum, then above the maximum. Each
    package reports its own sentinels. */
module Amounts {
  import opened Wrappers
  import opened Errors

  /** `validate*Amount`: None is Go's `nil`. Too-small and too-large errors
      are the sentinel wrapped with a message naming the bound. */
  function Check(pkg: Package, minimum: int, maximum: int, amount: int,
                 tooSmall: string, tooLarge: string): (r: Option<Error>)
    requires 0 < minimum <= maximum
    ensures r.None? <==> minimum <= amount <= maximum
    ensures amount <= 0 ==> r == Some(Sentinel(pkg, InvalidAmount))
    ensures 0 < amount < minimum ==> r.Some? && Is(r.value, pkg, AmountTooSmall) && r.value.Wrapped?
    ensures amount > maximum ==> r.Some? && Is(r.value, pkg, AmountTooLarge) && r.value.Wrapped?
    ensures r.Some? ==> Root(r.value).Sentinel? && Root(r.value).pkg == pkg
  {
    if amount <= 0 then Some(Sentinel(pkg, InvalidAmount))
    else if amount < minimum then Some(Wrapped(tooSmall, Sentinel(pkg, AmountTooSmall)))
    else if amount > maximum then Some(Wrapped(tooLarge, Sentinel(pkg, AmountTooLarge)))
    else None
  }
}

=== FILE: auth.dfy ===
/** The pure rules of the authentication service
    (internal/service/auth_service.go): masking an e-mail address for display,
    classifying a login identifier, and the order of checks and the lockout
    rule in `Login`. */
module Auth {
  import opened Wrappers
  import opened Clock
  import opened Users

  /** A Go string is a sequence of bytes. */
  newtype byte = x: int | 0 <= x < 256

  const At: byte := 64                  // '@'
  const Stars: seq<byte> := [42, 42, 42]  // "***"

  /** `strings.Split(s, sep)` for a one-element separator: the maximal runs
      between separators, in order; one more part than there are separators. */
  function Split<T(==)>(s: seq<T>, sep: T): (parts: seq<seq<T>>)
    ensures |parts| >= 1
  {
    if |s| == 0 then [[]]
    else
      var init := Split(s[..|s| - 1], sep);
      var last := s[|s| - 1];
      if last == sep then init + [[]]
      else init[..|init| - 1] + [init[|init| - 1] + [last]]
  }

  /** One more part than there are separators. */
  lemma {:induction false} SplitCount<T>(s: seq<T>, sep: T)
    ensures |Split(s, sep)| == multiset(s)[sep] + 1
  {
    if |s| > 0 {
      var prefix := s[..|s| - 1];
      var last := s[|s| - 1];
      SplitCount(prefix, sep);
      assert s == prefix + [last];
      assert multiset(s) == multiset(prefix) + multiset{last};
    }
  }

  /** No part holds a separator. */
  lemma {:induction false} SplitPartsFree<T>(s: seq<T>, sep: T)
    ensures forall i :: 0 <= i < |Split(s, sep)| ==> sep !in Split(s, sep)[i]
  {
    if |s| > 0 {
      var prefix := s[..|s| - 1];
      var last := s[|s| - 1];
      var init := Split(prefix, sep);
      SplitPartsFree(prefix, sep);
      var parts := Split(s, sep);
      if last == sep {
        assert parts == init + [[]];
      } else {
        assert parts == init[..|init| - 1] + [init[|init| - 1] + [last]];
        forall i | 0 <= i < |parts| ensures sep !in parts[i] {
          if i < |init| - 1 {
            assert parts[i] == init[i];
          } else {
            assert parts[i] == init[|init| - 1] + [last];
          }
        }
      }
    }
  }

  /** `strings.Join(parts, sep)`. */
  function Join<T>(parts: seq<seq<T>>, sep: T): seq<T>
    requires |parts| >= 1
  {
    if |parts| == 1 then parts[0]
    else Join(parts[..|parts| - 1], sep) + [sep] + parts[|parts| - 1]
  }

  /** Joining the parts with the separator gives back the string. */
  lemma {:induction false} JoinSplit<T>(s: seq<T>, sep: T)
    ensures Join(Split(s, sep), sep) == s
  {
    if |s| > 0 {
      var prefix := s[..|s| - 1];
      var init := Split(prefix, sep);
      var last := s[|s| - 1];
      JoinSplit(prefix, sep);
      var parts := Split(s, sep);
      if last == sep {
        assert parts[..|parts| - 1] == init;
      } else if |init| > 1 {
        assert parts[..|parts| - 1] == init[..|init| - 1];
      }
    }
  }

  /** Appending text free of the separator extends the last part only. */
  lemma {:induction false} SplitExtendsLast<T>(x: seq<T>, d: seq<T>, sep: T)
    requires sep !in d
    ensures var px := Split(x, sep);
            Split(x + d, sep) == px[..|px| - 1] + [px[|px| - 1] + d]
    decreases |d|
  {
    var px := Split(x, sep);
    if |d| == 0 {
      assert x + d == x;
      assert px[|px| - 1] + d == px[|px| - 1];
      assert px[..|px| - 1] + [px[|px| - 1]] == px;
    } else {
      var d' := d[..|d| - 1];
      SplitExtendsLast(x, d', sep);
      assert (x + d)[..|x + d| - 1] == x + d';
      assert px[|px| - 1] + d' + [d[|d| - 1]] == px[|px| - 1] + d;
    }
  }

  /** An address with one separator splits into exactly its two sides. */
  lemma SplitAddress<T>(local: seq<T>, domain: seq<T>, sep: T)
    requires sep !in local && sep !in domain
    ensures Split(local + [sep] + domain, sep) == [local, domain]
  {
    SplitExtendsLast([], local, sep);
    assert [] + local == local;
    assert Split(local, sep) == [local];
    var withSep := local + [sep];
    assert withSep[..|withSep| - 1] == local;
    assert Split(withSep, sep) == [local, []];
    SplitExtendsLast(withSep, domain, sep);
    assert [] + domain == domain;
  }

  /** `maskEmail` as written. `None` is the run-time panic: slicing the first
      byte of an empty local part is out of range. */
  function MaskEmailAsWritten(email: seq<byte>): (r: Option<seq<byte>>)
    ensures r.None? <==> |Split(email, At)| == 2 && |Split(email, At)[0]| == 0
  {
    var parts := Split(email, At);
    if |parts| != 2 then Some(email)
    else
      var local := parts[0];
      var domain := parts[1];
      if |local| == 0 then None
      else if |local| <= 2 then Some(local[0..1] + Stars + [At] + domain)
      else Some(local[0..1] + Stars + local[|local| - 1..] + [At] + domain)
  }

  /** `maskEmail` with the empty local part masked as well, rather than
      panicking. */
  function MaskEmail(email: seq<byte>): (r: seq<byte>)
    ensures MaskEmailAsWritten(email).Some? ==> r == MaskEmailAsWritten(email).value
    ensures |Split(email, At)| != 2 ==> r == email
    ensures MaskEmailAsWritten(email).None? ==> r == Stars + [At] + Split(email, At)[1]
  {
    var parts := Split(email, At);
    if |parts| != 2 then email
    else
      var local := parts[0];
      var domain := parts[1];
      if |local| == 0 then Stars + [At] + domain
      else if |local| <= 2 then local[0..1] + Stars + [At] + domain
      else local[0..1] + Stars + local[|local| - 1..] + [At] + domain
  }

  /** What an address `local@domain` masks to: the first byte of the local
      part, three stars, the last byte when the local part is longer than two,
      and the domain unchanged. */
  lemma MaskOfAddress(local: seq<byte>, domain: seq<byte>)
    requires At !in local && At !in domain
    ensures var m := MaskEmail(local + [At] + domain);
            && (|local| == 0 ==> m == Stars + [At] + domain)
            && (1 <= |local| <= 2 ==> m == [local[0]] + Stars + [At] + domain)
            && (|local| > 2 ==> m == [local[0]] + Stars + [local[|local| - 1]] + [At] + domain)
    ensures MaskEmailAsWritten(local + [At] + domain).None? <==> |local| == 0
  {
    var email := local + [At] + domain;
    SplitAddress(local, domain, At);
    assert Split(email, At) == [local, domain];
    if |local| > 0 {
      assert local[0..1] == [local[0]];
      assert local[|local| - 1..] == [local[|local| - 1]];
    }
  }

  /** Text with no '@', or with more than one, is shown as it is. */
  lemma MaskLeavesNonAddresses(email: seq<byte>)
    requires multiset(email)[At] != 1
    ensures MaskEmail(email) == email
    ensures MaskEmailAsWritten(email) == Some(email)
  {
    SplitCount(email, At);
  }

  /** The mask of a long local part depends only on its first and last bytes:
      two addresses that differ in the interior look the same. */
  lemma MaskHidesInterior(local: seq<byte>, other: seq<byte>, domain: seq<byte>)
    requires At !in local && At !in other && At !in domain
    requires |local| > 2 && |other| > 2
    requires local[0] == other[0] && local[|local| - 1] == other[|other| - 1]
    ensures MaskEmail(local + [At] + domain) == MaskEmail(other + [At] + domain)
  {
    MaskOfAddress(local, domain);
    MaskOfAddress(other, domain);
  }

  /** The panic is reached by "@x.com". */
  lemma MaskEmailPanicsOnEmptyLocalPart()
    ensures MaskEmailAsWritten([64, 120, 46, 99, 111, 109]).None?
  {
    var domain: seq<byte> := [120, 46, 99, 111, 109];
    assert [] + [At] + domain == [64, 120, 46, 99, 111, 109];
    MaskOfAddress([], domain);
  }

  /** The code points `unicode.IsSpace` accepts: the Latin-1 spaces and the
      Unicode space separators. */
  const UnicodeSpaces: set<char> := {
    '\t', '\n', '\U{000B}', '\U{000C}', '\r', ' ', '\U{0085}', '\U{00A0}', '\U{1680}',
    '\U{2000}', '\U{2001}', '\U{2002}', '\U{2003}', '\U{2004}', '\U{2005}',
    '\U{2006}', '\U{2007}', '\U{2008}', '\U{2009}', '\U{200A}',
    '\U{2028}', '\U{2029}', '\U{202F}', '\U{205F}', '\U{3000}'}

  predicate IsSpace(c: char) {
    c in UnicodeSpaces
  }

  /** Dropping the leading characters in `spaces`. */
  function TrimLeft(s: string, spaces: set<char>): (r: string)
    ensures |r| <= |s| && r == s[|s| - |r|..]
    ensures forall i :: 0 <= i < |s| - |r| ==> s[i] in spaces
    ensures |r| > 0 ==> r[0] !in spaces
  {
    if |s| > 0 && s[0] in spaces then TrimLeft(s[1..], spaces) else s
  }

  /** Dropping the trailing characters in `spaces`. */
  function TrimRight(s: string, spaces: set<char>): (r: string)
    ensures |r| <= |s| && r == s[..|r|]
    ensures forall i :: |r| <= i < |s| ==> s[i] in spaces
    ensures |r| > 0 ==> r[|r| - 1] !in spaces
  {
    if |s| > 0 && s[|s| - 1] in spaces then TrimRight(s[..|s| - 1], spaces) else s
  }

  /** Trimming both ends leaves a slice of `s` with only `spaces` around it,
      itself neither beginning nor ending with one. */
  lemma TrimBothEnds(s: string, spaces: set<char>, left: string, r: string)
    requires |left| <= |s| && left == s[|s| - |left|..]
    requires |r| <= |left| && r == left[..|r|]
    requires forall k :: |r| <= k < |left| ==> left[k] in spaces
    requires forall k :: 0 <= k < |s| - |left| ==> s[k] in spaces
    requires |left| > 0 ==> left[0] !in spaces
    requires |r| > 0 ==> r[|r| - 1] !in spaces
    ensures |s| - |left| + |r| <= |s| && r == s[|s| - |left|..][..|r|]
    ensures forall k :: 0 <= k < |s| - |left| ==> s[k] in spaces
    ensures forall k :: |s| - |left| + |r| <= k < |s| ==> s[k] in spaces
    ensures |r| > 0 ==> r[0] !in spaces && r[|r| - 1] !in spaces
  {
    var i := |s| - |left|;
    assert left == s[i..];
    assert r == left[..|r|];
    forall k | i + |r| <= k < |s| ensures s[k] in spaces {
      assert s[k] == left[k - i];
    }
    if |r| > 0 {
      assert r[0] == left[0];
    }
  }

  /** Trimming both ends: the slice of `s` left after dropping the characters
      in `spaces` at either end; only such characters were dropped, and the
      slice neither begins nor ends with one. */
  function Trim(s: string, spaces: set<char>): (r: string)
    ensures var i := |s| - |TrimLeft(s, spaces)|;
            && i + |r| <= |s| && r == s[i..][..|r|]
            && (forall k :: 0 <= k < i ==> s[k] in spaces)
            && (forall k :: i + |r| <= k < |s| ==> s[k] in spaces)
    ensures |r| > 0 ==> r[0] !in spaces && r[|r| - 1] !in spaces
  {
    var left := TrimLeft(s, spaces);
    var r := TrimRight(left, spaces);
    TrimBothEnds(s, spaces, left, r);
    r
  }

  /** Trimming twice is trimming once. */
  lemma TrimIdempotent(s: string, spaces: set<char>)
    ensures Trim(Trim(s, spaces), spaces) == Trim(s, spaces)
  {
    var r := Trim(s, spaces);
    if |r| > 0 {
      assert TrimLeft(r, spaces) == r;
      assert TrimRight(r, spaces) == r;
    }
  }

  /** `strings.TrimSpace`: trimming Unicode white space. */
  function TrimSpace(s: string): string {
    Trim(s, UnicodeSpaces)
  }

  /** How many bytes UTF-8 needs for a code point. */
  function Utf8Width(c: char): (n: nat)
    ensures 1 <= n <= 4
  {
    if c as int < 0x80 then 1
    else if c as int < 0x800 then 2
    else if c as int < 0x1_0000 then 3
    else 4
  }

  /** `len(s)` of a Go string: its UTF-8 byte count. */
  function Utf8Length(s: string): (n: nat)
    ensures |s| <= n <= 4 * |s|
  {
    if |s| == 0 then 0 else Utf8Length(s[..|s| - 1]) + Utf8Width(s[|s| - 1])
  }

  /** The lookup a login identifier selects. */
  datatype Lookup = ByUsername(username: string) | ByPhone(phone: string)

  /** Login identifier classification: after trimming, a leading '@' is a
      username with the '@' removed; a leading '+' or a length of ten bytes or
      more is a phone number; anything else is a username as typed. */
  function ClassifyIdentifier(raw: string): (l: Lookup)
    ensures var t := TrimSpace(raw);
            && (|t| > 0 && t[0] == '@' ==> l == ByUsername(t[1..]))
            && (|t| > 0 && t[0] == '+' ==> l == ByPhone(t))
            && ((|t| == 0 || t[0] != '@') && Utf8Length(t) >= 10 ==> l == ByPhone(t))
            && ((|t| == 0 || (t[0] != '@' && t[0] != '+')) && Utf8Length(t) < 10 ==> l == ByUsername(t))
    ensures l.ByUsername? ==> |l.username| <= |raw|
    ensures l.ByPhone? ==> |l.phone| > 0 && !IsSpace(l.phone[0])
  {
    ClassifyTrimmed(TrimSpace(raw))
  }

  /** The classification proper, on text already trimmed. */
  function ClassifyTrimmed(t: string): Lookup {
    if |t| > 0 && t[0] == '@' then ByUsername(t[1..])
    else if (|t| > 0 && t[0] == '+') || Utf8Length(t) >= 10 then ByPhone(t)
    else ByUsername(t)
  }

  /** White space around an identifier never changes the lookup: classifying
      the trimmed text is classifying the text. */
  lemma ClassifyIgnoresSurroundingSpace(raw: string)
    ensures ClassifyIdentifier(TrimSpace(raw)) == ClassifyIdentifier(raw)
  {
    TrimIdempotent(raw, UnicodeSpaces);
  }

  /** Wrong-password count at which a further failure locks the account,
      read before the increment: the fifth failure locks. */
  const LockThreshold := 4
  const LockDuration: Duration := 30 * Minute

  /** Why a login was refused. */
  datatype LoginError =
    | InvalidCredentials        // unknown user, or wrong password below the threshold
    | AccountLocked
    | AccountInactive
    | LockedOut                 // wrong password that reached the threshold
    | LookupFailed              // any other error from the user lookup
    | UpdateFailed              // recording the successful login failed

  /** The user lookup's outcome: the user, not found, or a database error. */
  datatype Found = FoundUser(user: User) | UserNotFound | LookupError

  /** `dto.UserDTO`: the user as a login reply shows it. It has no last-login,
      lock or attempt fields. */
  datatype UserDto = UserDto(
    id: int,
    name: string,
    phone: string,
    email: string,
    username: Option<string>,
    isEmailVerified: bool,
    onboardingCompleted: bool,
    createdAt: Instant)

  /** `userToDTO`: the identity and profile columns, and the username when set. */
  function ToDto(u: User): (d: UserDto)
    ensures d.id == u.id && d.name == u.name && d.phone == u.phone && d.email == u.email
    ensures d.username == u.username
    ensures d.isEmailVerified == u.isEmailVerified && d.onboardingCompleted == u.onboardingCompleted
    ensures d.createdAt == u.createdAt
  {
    UserDto(u.id, u.name, u.phone, u.email, u.username, u.isEmailVerified, u.onboardingCompleted, u.createdAt)
  }

  /** The reply view is blind to what a login writes: the attempt counter, the
      lock, the last-login instant and the update time, and to the secrets. */
  lemma ToDtoIgnoresLoginColumns(u: User, attempts: int, locked: Option<Instant>,
                                 lastLogin: Option<Instant>, updated: Instant, hash: string)
    ensures ToDto(u) == ToDto(u.(failedLoginAttempts := attempts, lockedUntil := locked,
                                 lastLoginAt := lastLogin, updatedAt := updated, passwordHash := hash))
  {
  }

  /** A login's reply, and the stored user row after it, if there is one. */
  datatype LoginReply = LoginReply(result: Result<UserDto, LoginError>, after: Option<User>)

  /** `Login` from the user row on: the lookup's outcome, whether the
      password matched, whether recording the login fails, and the current
      instant are parameters. */
  function Login(found: Found, passwordMatches: bool, updateFails: bool, now: Instant): (r: LoginReply)
    // Lookup failures: an unknown user is indistinguishable from a wrong password.
    ensures found.UserNotFound? ==> r == LoginReply(Err(InvalidCredentials), None)
    ensures found.LookupError? ==> r == LoginReply(Err(LookupFailed), None)
    ensures found.FoundUser? ==> r.after.Some? && r.after.value.id == found.user.id
    // A locked account is refused whatever the password, and nothing is written.
    ensures found.FoundUser? && IsLocked(found.user, now) ==>
              r == LoginReply(Err(AccountLocked), Some(found.user))
    ensures found.FoundUser? && !IsLocked(found.user, now) && !found.user.isActive ==>
              r == LoginReply(Err(AccountInactive), Some(found.user))
    // A wrong password counts one more failure; at the threshold it also locks.
    ensures found.FoundUser? && !IsLocked(found.user, now) && found.user.isActive && !passwordMatches ==>
              && r.after.value.failedLoginAttempts == found.user.failedLoginAttempts + 1
              && (found.user.failedLoginAttempts >= LockThreshold ==>
                    r.result == Err(LockedOut) && r.after.value.lockedUntil == Some(now + LockDuration))
              && (found.user.failedLoginAttempts < LockThreshold ==>
                    r.result == Err(InvalidCredentials) && r.after.value.lockedUntil == found.user.lockedUntil)
    // The right password on an active, unlocked account logs in, recording the
    // login and resetting the counter and the lock; if recording it fails,
    // the login fails and nothing is written.
    ensures found.FoundUser? && !IsLocked(found.user, now) && found.user.isActive && passwordMatches
              && !updateFails ==>
              && r.result == Ok(ToDto(found.user))
              && r.after == Some(found.user.(lastLoginAt := Some(now), failedLoginAttempts := 0,
                                             lockedUntil := None, updatedAt := now))
    ensures found.FoundUser? && !IsLocked(found.user, now) && found.user.isActive && passwordMatches
              && updateFails ==>
              r == LoginReply(Err(UpdateFailed), Some(found.user))
    // A successful login resets the counter and the lock.
    ensures r.result.Ok? ==>
              && found.FoundUser? && passwordMatches && found.user.isActive && !IsLocked(found.user, now)
              && r.after.value.failedLoginAttempts == 0 && r.after.value.lockedUntil.None?
              && r.after.value.lastLoginAt == Some(now)
              && r.result.value == ToDto(found.user)
              && r.result.value == ToDto(r.after.value)
  {
    match found
    case UserNotFound => LoginReply(Err(InvalidCredentials), None)
    case LookupError => LoginReply(Err(LookupFailed), None)
    case FoundUser(u) =>
      if IsLocked(u, now) then LoginReply(Err(AccountLocked), Some(u))
      else if !u.isActive then LoginReply(Err(AccountInactive), Some(u))
      else if !passwordMatches then
        var counted := u.(failedLoginAttempts := u.failedLoginAttempts + 1, updatedAt := now);
        if u.failedLoginAttempts >= LockThreshold then
          LoginReply(Err(LockedOut), Some(counted.(lockedUntil := Some(now + LockDuration))))
        else LoginReply(Err(InvalidCredentials), Some(counted))
      else if updateFails then LoginReply(Err(UpdateFailed), Some(u))
      else
        var recorded := u.(lastLoginAt := Some(now), failedLoginAttempts := 0, lockedUntil := None, updatedAt := now);
        LoginReply(Ok(ToDto(u)), Some(recorded))
  }

  /** The user row after `n` wrong-password logins at `now`. */
  function FailLogins(u: User, n: nat, now: Instant): (v: User)
    ensures v.id == u.id
  {
    if n == 0 then u
    else
      var before := FailLogins(u, n - 1, now);
      var r := Login(FoundUser(before), false, false, now);
      r.after.value
  }

  /** From an active, unlocked account with no failures, the first four wrong
      passwords are refused as invalid credentials and leave it unlocked; the
      fifth locks it for thirty minutes, during which even the right password
      is refused. */
  lemma {:induction false} FifthFailureLocks(u: User, now: Instant, n: nat)
    requires u.isActive && !IsLocked(u, now) && u.failedLoginAttempts == 0
    requires n <= 5
    ensures var v := FailLogins(u, n, now);
            v.failedLoginAttempts == n && v.isActive
            && (n < 5 ==> v.lockedUntil == u.lockedUntil && !IsLocked(v, now))
            && (n < 5 ==> Login(FoundUser(v), false, false, now).result ==
                            (if n == 4 then Err(LockedOut) else Err(InvalidCredentials)))
            && (n == 5 ==> forall t :: now <= t < now + LockDuration ==> IsLocked(v, t))
            && (n == 5 ==> Login(FoundUser(v), true, false, now).result == Err(AccountLocked))
  {
    if n > 0 {
      FifthFailureLocks(u, now, n - 1);
    }
  }
}

=== FILE: clock.dfy ===
/** Instants and durations. The source reads `time.Now()`; the model passes the
    current instant as a parameter instead. */
module Clock {

  /** Nanoseconds since an arbitrary epoch, as Go's `time.Time` orders them. */
  type Instant = int

  /** Nanoseconds, as Go's `time.Duration`. */
  type Duration = int

  const Second: Duration := 1_000_000_000
  const Minute: Duration := 60 * Second

  /** `t.After(u)`: strictly later. */
  predicate After(t: Instant, u: Instant) {
    t > u
  }

  /** `t.Before(u)`: strictly earlier. */
  predicate Before(t: Instant, u: Instant) {
    t < u
  }
}

=== FILE: errors.dfy ===
/** Go error values as the wallet code builds and inspects them: sentinels made
    with `errors.New`, context added with `fmt.Errorf("...: %w", err)`, and the
    `errors.Is` test that looks through every wrapper. */
module Errors {

  /** The package that declares a sentinel. `errors.New` returns a fresh
      value compared by identity, so two sentinels with the same text in different packages are
      different errors to `errors.Is`. */
  datatype Package = ServicePkg | ServicesPkg | RepositoryPkg

  datatype Kind =
    | InvalidAmount
    | AmountTooSmall
    | AmountTooLarge
    | InvalidIdempotencyKey
    | NegativeBalance
    | InsufficientBalance
    | AccountNotFound
    | SameAccount
    | DuplicateIdempotencyKey

  datatype Error =
    | Sentinel(pkg: Package, kind: Kind)
    | Wrapped(context: string, inner: Error)
    | Opaque(message: string)

  /** The sentinels each package declares (internal/service/wallet_service.go,
      internal/services/wallet_services.go, internal/repository/wallet_repository.go). */
  predicate Declares(pkg: Package, kind: Kind) {
    match pkg
    case ServicePkg => kind != DuplicateIdempotencyKey
    case ServicesPkg =>
      kind == InvalidAmount || kind == AmountTooSmall || kind == AmountTooLarge
      || kind == InvalidIdempotencyKey || kind == NegativeBalance
    case RepositoryPkg =>
      kind == InsufficientBalance || kind == AccountNotFound || kind == DuplicateIdempotencyKey
  }

  /** A failure reported by the database driver (connection, query or commit). */
  const DbFailure := Opaque("database error")

  /** `pgx.ErrNoRows`: a query that expected a row found none. */
  const NoRows := Opaque("no rows in result set")

  /** `errors.Is(e, Sentinel(pkg, kind))`: some error on the unwrap chain is that sentinel. */
  predicate Is(e: Error, pkg: Package, kind: Kind) {
    match e
    case Sentinel(p, k) => p == pkg && k == kind
    case Wrapped(_, inner) => Is(inner, pkg, kind)
    case Opaque(_) => false
  }

  /** The innermost error of a chain: what every wrapper ultimately reports. */
  function Root(e: Error): (r: Error)
    ensures !r.Wrapped?
  {
    match e
    case Wrapped(_, inner) => Root(inner)
    case _ => e
  }

  /** A chain carries at most one sentinel, its root, so `errors.Is` asks
      exactly whether the root is that sentinel. */
  lemma {:induction false} IsIffRoot(e: Error, pkg: Package, kind: Kind)
    ensures Is(e, pkg, kind) <==> Root(e) == Sentinel(pkg, kind)
  {
    match e
    case Wrapped(_, inner) => IsIffRoot(inner, pkg, kind);
    case _ =>
  }

  /** Adding context with `%w` never changes which sentinel an error is. */
  lemma WrappingKeepsIdentity(context: string, e: Error, pkg: Package, kind: Kind)
    ensures Is(Wrapped(context, e), pkg, kind) <==> Is(e, pkg, kind)
    ensures Root(Wrapped(context, e)) == Root(e)
  {
  }
}

=== FILE: goint.dfy ===
/** Go's 64-bit `int`/`int64`, and the decimal text form `strconv` reads and writes. */
module GoInt {
  import opened Wrappers

  const MinInt64 := -0x8000_0000_0000_0000
  const MaxInt64 := 0x7fff_ffff_ffff_ffff
  const Modulus64 := 0x1_0000_0000_0000_0000

  predicate InRange(x: int) {
    MinInt64 <= x <= MaxInt64
  }

  /** Two's-complement wrap-around: what a 64-bit multiply or add stores. */
  function Wrap(x: int): (r: int)
    ensures InRange(r)
    ensures InRange(x) ==> r == x
    ensures (r - x) % Modulus64 == 0
  {
    (x - MinInt64) % Modulus64 + MinInt64
  }

  predicate IsDigit(c: char) {
    '0' <= c <= '9'
  }

  predicate AllDigits(s: string) {
    forall i :: 0 <= i < |s| ==> IsDigit(s[i])
  }

  function DigitValue(c: char): nat
    requires IsDigit(c)
  {
    c as int - '0' as int
  }

  function DigitChar(d: nat): (c: char)
    requires d < 10
    ensures IsDigit(c) && DigitValue(c) == d
  {
    ('0' as int + d) as char
  }

  /** The number a run of decimal digits spells, most significant first;
      leading zeros add nothing. */
  function Value(s: string): nat
    requires AllDigits(s)
  {
    if |s| == 0 then 0 else Value(s[..|s| - 1]) * 10 + DigitValue(s[|s| - 1])
  }

  /** The shortest decimal spelling of `n`: `strconv.Itoa` on a non-negative value. */
  function Digits(n: nat): (s: string)
    ensures |s| >= 1 && AllDigits(s)
    ensures |s| > 1 ==> s[0] != '0'
  {
    if n < 10 then [DigitChar(n)] else Digits(n / 10) + [DigitChar(n % 10)]
  }

  /** `strconv.Itoa`. */
  function Itoa(n: int): (s: string)
    ensures |s| >= 1
    ensures n < 0 <==> s[0] == '-'
  {
    if n < 0 then "-" + Digits(-n) else Digits(n)
  }

  /** Reading back the digits `Digits` writes gives the number. */
  lemma {:induction false} ValueOfDigits(n: nat)
    ensures Value(Digits(n)) == n
  {
    var s := Digits(n);
    if n >= 10 {
      var prefix := Digits(n / 10);
      assert s[..|s| - 1] == prefix;
      ValueOfDigits(n / 10);
    }
  }

  datatype NumError = SyntaxError | RangeError

  /** What `strconv.Atoi` returns: a value and, possibly, an error. Callers
      that discard the error still get the value: 0 after a syntax error, and
      the 64-bit bound on the side of the sign after a range error. */
  datatype Conversion = Conversion(value: int, err: Option<NumError>)

  const MaxUint64 := Modulus64 - 1

  /** The value of a digit run under a sign. */
  function SignedValue(negative: bool, digits: string): int
    requires AllDigits(digits)
  {
    var magnitude: int := Value(digits);
    if negative then -magnitude else magnitude
  }

  /** How many decimal digits `d` begins with. */
  function DigitRunLength(d: string): (n: nat)
    ensures n <= |d|
    ensures forall i :: 0 <= i < n ==> IsDigit(d[i])
    ensures n < |d| ==> !IsDigit(d[n])
  {
    if |d| > 0 && IsDigit(d[0]) then 1 + DigitRunLength(d[1..]) else 0
  }

  /** The text after an optional leading sign. */
  function Unsigned(s: string): string
    requires |s| > 0
  {
    if s[0] == '+' || s[0] == '-' then s[1..] else s
  }

  /** The value a range error comes with: the bound on the side of the sign. */
  function Saturated(negative: bool): int {
    if negative then MinInt64 else MaxInt64
  }

  /** `strconv.Atoi` on a 64-bit platform. After an optional sign the digits
      are read one at a time into an unsigned 64-bit accumulator: a byte that
      is not a digit is a syntax error, but a run of digits whose value passes
      2^64 - 1 is a range error as soon as it does, before any later byte is
      looked at. A digit run within 64 unsigned bits must then fit the signed
      range. The short-input fast path agrees, since fewer than 19 bytes can
      neither overflow nor spell a value outside the signed range. */
  function Atoi(s: string): (r: Conversion)
    ensures |s| == 0 ==> r == Conversion(0, Some(SyntaxError))
    ensures r.err.None? ==> InRange(r.value)
    ensures r.err == Some(SyntaxError) ==> r.value == 0
    ensures |s| > 0 && r.err == Some(RangeError) ==> r.value == Saturated(s[0] == '-')
    ensures |s| > 0 ==>
              var d := Unsigned(s);
              var run := d[..DigitRunLength(d)];
              var negative := s[0] == '-';
              // A value is exactly the signed value of an all-digit text that fits.
              && (r.err.None? ==> |d| > 0 && AllDigits(d) && r.value == SignedValue(negative, d))
              && (|d| > 0 && AllDigits(d) && InRange(SignedValue(negative, d)) ==>
                    r == Conversion(SignedValue(negative, d), None))
              && (|d| > 0 && AllDigits(d) && !InRange(SignedValue(negative, d)) ==>
                    r == Conversion(Saturated(negative), Some(RangeError)))
              // The accumulator overflows before a later non-digit is reached.
              && (Value(run) > MaxUint64 ==> r == Conversion(Saturated(negative), Some(RangeError)))
              // A non-digit (or nothing) after the sign, with no overflow before it.
              && ((|d| == 0 || (!AllDigits(d) && Value(run) <= MaxUint64)) ==>
                    r == Conversion(0, Some(SyntaxError)))
  {
    if |s| == 0 then Conversion(0, Some(SyntaxError))
    else
      var negative := s[0] == '-';
      var d := Unsigned(s);
      var n := DigitRunLength(d);
      if |d| == 0 then Conversion(0, Some(SyntaxError))
      else if Value(d[..n]) > MaxUint64 then
        assert AllDigits(d) ==> d[..n] == d;
        Conversion(Saturated(negative), Some(RangeError))
      else if n < |d| then Conversion(0, Some(SyntaxError))
      else
        assert d[..n] == d;
        var v := SignedValue(negative, d);
        if InRange(v) then Conversion(v, None) else Conversion(Saturated(negative), Some(RangeError))
  }

  /** A digit run that passes 2^64 - 1 is a range error even when a non-digit
      follows it: the accumulator overflows before that byte is read. The
      value is the 64-bit bound on the side of the sign. */
  lemma AtoiOverflowsBeforeJunk(digits: string, rest: string)
    requires AllDigits(digits) && Value(digits) > MaxUint64
    requires |rest| > 0 && !IsDigit(rest[0])
    ensures Atoi(digits + rest) == Conversion(MaxInt64, Some(RangeError))
    ensures Atoi("-" + digits + rest) == Conversion(MinInt64, Some(RangeError))
  {
    var t := digits + rest;
    DigitRunOfConcat(digits, rest);
    assert t[..|digits|] == digits;
    assert |digits| > 0;
    assert Unsigned(t) == t;
    assert ("-" + digits + rest)[1..] == t;
  }

  /** A non-empty digit run within 64 unsigned bits followed by a non-digit
      is a syntax error, and the value is 0. */
  lemma AtoiJunkAfterDigits(digits: string, rest: string)
    requires AllDigits(digits) && 0 < |digits| && Value(digits) <= MaxUint64
    requires |rest| > 0 && !IsDigit(rest[0])
    ensures Atoi(digits + rest) == Conversion(0, Some(SyntaxError))
  {
    var t := digits + rest;
    DigitRunOfConcat(digits, rest);
    assert t[..|digits|] == digits;
    assert !AllDigits(t) by { assert !IsDigit(t[|digits|]); }
    assert Unsigned(t) == t;
  }

  lemma DigitRunOfConcat(digits: string, rest: string)
    requires AllDigits(digits) && |rest| > 0 && !IsDigit(rest[0])
    ensures DigitRunLength(digits + rest) == |digits|
  {
    var t := digits + rest;
    assert !IsDigit(t[|digits|]);
    assert forall i :: 0 <= i < |digits| ==> IsDigit(t[i]) by {
      forall i | 0 <= i < |digits| ensures IsDigit(t[i]) {
        assert t[i] == digits[i];
      }
    }
  }

  /** Twenty digits led by a 9, such as "99999999999999999999", pass 2^64 - 1;
      nineteen digits never do. */
  lemma TwentyDigitsOverflow(digits: string)
    requires AllDigits(digits) && |digits| == 20 && digits[0] == '9'
    ensures Value(digits) > MaxUint64
  {
    ValueBounds(digits);
    Pow10Of18();
    assert Pow10(19) == 10 * Pow10(18);
  }

  lemma NineteenDigitsFit(digits: string)
    requires AllDigits(digits) && |digits| == 19
    ensures Value(digits) <= MaxUint64
  {
    ValueBounds(digits);
    Pow10Of18();
    var top := DigitValue(digits[0]) + 1;
    assert top <= 10;
    assert Value(digits) < top * 1_000_000_000_000_000_000;
  }

  lemma {:induction false} Pow10Add(a: nat, b: nat)
    ensures Pow10(a + b) == Pow10(a) * Pow10(b)
  {
    if a > 0 {
      Pow10Add(a - 1, b);
    }
  }

  lemma Pow10Of18()
    ensures Pow10(18) == 1_000_000_000_000_000_000
  {
    Pow10Add(1, 1);
    Pow10Add(2, 2);
    Pow10Add(4, 4);
    Pow10Add(8, 8);
    Pow10Add(16, 2);
  }

  /** Twenty digits led by a 9 and then an 'x' ("99999999999999999999x") are
      a range error; nineteen digits and an 'x' are a syntax error. */
  lemma AtoiTrailingJunkByLength(digits: string)
    requires AllDigits(digits) && 19 <= |digits| <= 20 && digits[0] == '9'
    ensures |digits| == 20 ==> Atoi(digits + "x") == Conversion(MaxInt64, Some(RangeError))
    ensures |digits| == 19 ==> Atoi(digits + "x") == Conversion(0, Some(SyntaxError))
  {
    if |digits| == 20 {
      TwentyDigitsOverflow(digits);
      AtoiOverflowsBeforeJunk(digits, "x");
    } else {
      NineteenDigitsFit(digits);
      AtoiJunkAfterDigits(digits, "x");
    }
  }

  function Pow10(k: nat): (p: nat)
    ensures p >= 1
  {
    if k == 0 then 1 else 10 * Pow10(k - 1)
  }

  /** A digit run's value lies within the span its first digit and its length allow. */
  lemma {:induction false} ValueBounds(s: string)
    requires AllDigits(s) && |s| > 0
    ensures DigitValue(s[0]) * Pow10(|s| - 1) <= Value(s) < (DigitValue(s[0]) + 1) * Pow10(|s| - 1)
  {
    if |s| > 1 {
      var front := s[..|s| - 1];
      assert front[0] == s[0];
      ValueBounds(front);
      var d0, p, v, last := DigitValue(s[0]), Pow10(|s| - 2), Value(front), DigitValue(s[|s| - 1]);
      assert Value(s) == v * 10 + last;
      ScaleBounds(d0, p, v, last);
    }
  }

  /** The arithmetic step of `ValueBounds`: appending a digit scales the span by ten. */
  lemma ScaleBounds(d0: nat, p: nat, v: nat, last: nat)
    requires d0 * p <= v < (d0 + 1) * p && last < 10
    ensures d0 * (10 * p) <= v * 10 + last < (d0 + 1) * (10 * p)
  {
    assert d0 * (10 * p) == (d0 * p) * 10;
    assert (d0 + 1) * (10 * p) == ((d0 + 1) * p) * 10;
    assert v + 1 <= (d0 + 1) * p;
    assert (v + 1) * 10 <= ((d0 + 1) * p) * 10;
  }

  /** `Atoi` reads back every value `Itoa` writes. */
  lemma AtoiOfItoa(n: int)
    requires InRange(n)
    ensures Atoi(Itoa(n)) == Conversion(n, None)
  {
    var s := Itoa(n);
    if n < 0 {
      var d := Digits(-n);
      assert s[0] == '-' && s[1..] == d;
      ValueOfDigits(-n);
      assert Value(d) == -n;
    } else {
      assert IsDigit(s[0]);
      ValueOfDigits(n);
      assert Value(s) == n;
    }
  }

  /** Values past either end of the 64-bit range are refused, not wrapped. */
  lemma AtoiRefusesOutOfRange(n: int)
    requires !InRange(n)
    ensures Atoi(Itoa(n)) == Conversion(Saturated(n < 0), Some(RangeError))
  {
    var s := Itoa(n);
    if n < 0 {
      var d := Digits(-n);
      assert s[0] == '-' && s[1..] == d;
      ValueOfDigits(-n);
      assert Value(d) == -n;
    } else {
      assert IsDigit(s[0]);
      ValueOfDigits(n);
      assert Value(s) == n;
    }
  }
}

=== FILE: handler.dfy ===
/** The HTTP layer's logic (internal/handlers/wallet_handler.go): the table
    from service errors to HTTP statuses, the rule that a user id in a path
    must be a positive number, and the reading of the history paging query. */
module Handler {
  import opened Wrappers
  import opened Errors
  import opened GoInt
  import opened Models
  import opened Ledger
  import LiveWalletService
  import WalletService

  const StatusOK := 200
  const StatusBadRequest := 400
  const StatusNotFound := 404
  const StatusUnprocessableEntity := 422
  const StatusInternalServerError := 500

  /** The kinds the handler treats as a malformed request. */
  const ValidationKinds := {InvalidAmount, AmountTooSmall, AmountTooLarge, InvalidIdempotencyKey, SameAccount}

  /** The kind of the newer service's sentinel an error carries, if any. */
  function ServiceKind(e: Error): Option<Kind> {
    var root := Root(e);
    if root.Sentinel? && root.pkg == ServicePkg then Some(root.kind) else None
  }

  /** `errors.Is` against one of the newer service's sentinels reads the
      error's root. */
  lemma ServiceKindIff(e: Error)
    ensures forall k :: Is(e, ServicePkg, k) <==> ServiceKind(e) == Some(k)
  {
    forall k ensures Is(e, ServicePkg, k) <==> ServiceKind(e) == Some(k) {
      IsIffRoot(e, ServicePkg, k);
    }
  }

  /** `mapServiceError`: the status and the short message for an error. Only
      the newer service's sentinels are recognised, however deeply wrapped. */
  function MapServiceError(e: Error): (r: (int, string))
    ensures r.0 == StatusBadRequest <==> ServiceKind(e).Some? && ServiceKind(e).value in ValidationKinds
    ensures r.0 == StatusNotFound <==> ServiceKind(e) == Some(AccountNotFound)
    ensures r.0 == StatusUnprocessableEntity <==> ServiceKind(e) == Some(InsufficientBalance)
    ensures r.0 == StatusInternalServerError <==>
              ServiceKind(e).None? || ServiceKind(e).value in {NegativeBalance, DuplicateIdempotencyKey}
    ensures ServiceKind(e) == Some(NegativeBalance) ==> r.1 == "System error: negative balance detected"
    ensures ServiceKind(e).None? ==> r.1 == "Internal server error"
  {
    ServiceKindIff(e);
    if Is(e, ServicePkg, InvalidAmount) then (StatusBadRequest, "Invalid amount")
    else if Is(e, ServicePkg, AmountTooSmall) then (StatusBadRequest, "Amount too small")
    else if Is(e, ServicePkg, AmountTooLarge) then (StatusBadRequest, "Amount too large")
    else if Is(e, ServicePkg, InvalidIdempotencyKey) then (StatusBadRequest, "Idempotency key required")
    else if Is(e, ServicePkg, SameAccount) then (StatusBadRequest, "Cannot transfer to same account")
    else if Is(e, ServicePkg, AccountNotFound) then (StatusNotFound, "Account not found")
    else if Is(e, ServicePkg, InsufficientBalance) then (StatusUnprocessableEntity, "Insufficient balance")
    else if Is(e, ServicePkg, NegativeBalance) then (StatusInternalServerError, "System error: negative balance detected")
    else
      assert ServiceKind(e).None? || ServiceKind(e).value == DuplicateIdempotencyKey;
      (StatusInternalServerError, "Internal server error")
  }

  /** The status and message depend on nothing but the sentinel at the root. */
  lemma MappingDependsOnKind(e: Error, f: Error)
    requires ServiceKind(e) == ServiceKind(f)
    ensures MapServiceError(e) == MapServiceError(f)
  {
    ServiceKindIff(e);
    ServiceKindIff(f);
  }

  /** Context added with `%w` never changes the status: a wrapped validation
      error is still a 400. */
  lemma MappingIgnoresWrapping(context: string, e: Error)
    ensures MapServiceError(Wrapped(context, e)) == MapServiceError(e)
  {
    MappingDependsOnKind(Wrapped(context, e), e);
  }

  /** The status table read by error kind, whichever package declared the
      sentinel: the intended mapping for the service the server is wired to. */
  function MapErrorByKind(e: Error): (r: (int, string))
    ensures ServiceKind(e).Some? ==> r == MapServiceError(e)
    ensures Root(e).Sentinel? && Root(e).kind in ValidationKinds ==> r.0 == StatusBadRequest
    ensures Root(e).Sentinel? && Root(e).kind == AccountNotFound ==> r.0 == StatusNotFound
    ensures Root(e).Sentinel? && Root(e).kind == InsufficientBalance ==> r.0 == StatusUnprocessableEntity
    ensures !Root(e).Sentinel? ==> r == (StatusInternalServerError, "Internal server error")
  {
    var root := Root(e);
    if !root.Sentinel? then (StatusInternalServerError, "Internal server error")
    else if root.pkg == ServicePkg then MapServiceError(e)
    else MapServiceError(Sentinel(ServicePkg, root.kind))
  }

  /** `respondSuccess` / `respondServiceError`: 200 with the body, or the
      status `mapServiceError` gives the error. */
  function Status(result: Result<TransactionResponse, Error>): (status: int)
    ensures result.Ok? <==> status == StatusOK
    ensures result.Err? ==> status == MapServiceError(result.error).0
    ensures result.Err? && ServiceKind(result.error).None? ==> status == StatusInternalServerError
  {
    match result
    case Ok(_) => StatusOK
    case Err(e) => MapServiceError(e).0
  }

  /** The endpoint's status with the table read by kind: what `Status` would
      be if the table recognised the sentinels of the service it is wired to. */
  function StatusByKind(result: Result<TransactionResponse, Error>): (status: int)
    ensures result.Ok? <==> status == StatusOK
    ensures result.Err? ==> status == MapErrorByKind(result.error).0
    ensures result.Err? && ServiceKind(result.error).Some? ==> status == Status(result)
  {
    match result
    case Ok(_) => StatusOK
    case Err(e) => MapErrorByKind(e).0
  }

  /** As written, the table misses every error of the service the server is
      wired to: none of them roots in the newer service's sentinels. */
  lemma LiveErrorsAllMapTo500(e: Error)
    requires LiveWalletService.FromLiveStack(e)
    ensures MapServiceError(e).0 == StatusInternalServerError
  {
  }

  /** A concrete case: a withdrawal the live service refuses for insufficient
      balance is answered 500 by the endpoint as written, and would be 422
      with the table read by kind. */
  lemma LiveInsufficientBalance(s: State, req: LiveWalletService.Request)
    requires WellFormed(s)
    requires req.idempotencyKey != "" && req.idempotencyKey !in s.keys
    requires LiveWalletService.ValidateWithdrawAmount(req.amount).None?
    requires req.userId in s.owners && s.balances[s.owners[req.userId]] < req.amount
    ensures var r := LiveWalletService.Withdraw(s, req, None);
            r.result.Err?
            && MapServiceError(r.result.error).0 == StatusInternalServerError
            && MapErrorByKind(r.result.error).0 == StatusUnprocessableEntity
            && Status(r.result) == StatusInternalServerError
            && StatusByKind(r.result) == StatusUnprocessableEntity
  {
  }

  /** `parseUserID`: the path parameter must parse as a number, and the number
      must be positive. */
  function ParseUserID(param: string): (r: Result<int, string>)
    ensures r.Ok? <==> Atoi(param).err.None? && Atoi(param).value > 0
    ensures r.Ok? ==> r.value == Atoi(param).value && 0 < r.value <= MaxInt64
    ensures Atoi(param).err.Some? ==> r == Err("user_id must be a number")
    ensures Atoi(param).err.None? && Atoi(param).value <= 0 ==> r == Err("user_id must be positive")
  {
    var c := Atoi(param);
    if c.err.Some? then Err("user_id must be a number")
    else if c.value <= 0 then Err("user_id must be positive")
    else Ok(c.value)
  }

  /** Over the decimal spellings of 64-bit ids, exactly the positive ones are
      accepted, each as itself. */
  lemma ParseUserIDAcceptsPositive(n: int)
    requires InRange(n)
    ensures ParseUserID(Itoa(n)).Ok? <==> n > 0
    ensures ParseUserID(Itoa(n)).Ok? ==> ParseUserID(Itoa(n)).value == n
  {
    AtoiOfItoa(n);
  }

  /** `GetTransactionHistory`'s query parameters: `page` (default "1") and
      `per_page` (default "20") go through `strconv.Atoi` with the error
      discarded, and the values reach the service's paging unchecked. */
  function HistoryPaging(pageText: string, perPageText: string): (p: WalletService.Page)
    ensures Atoi(pageText).err == Some(SyntaxError) ==> p.page == 1 && p.offset == 0
    ensures Atoi(perPageText).err.Some? ==> p.perPage == 20
    ensures Atoi(pageText).err.None? && Atoi(perPageText).err.None? ==>
              p == WalletService.NormalizePageAsWritten(Atoi(pageText).value, Atoi(perPageText).value)
  {
    var page := Atoi(pageText).value;
    var perPage := Atoi(perPageText).value;
    WalletService.NormalizePageAsWritten(page, perPage)
  }

  /** The defaults read back as the first page of twenty rows. */
  lemma HistoryPagingDefaults()
    ensures HistoryPaging("1", "20") == WalletService.Page(1, 20, 0)
  {
  }

  /** A page too long for 64 bits is not refused: `Atoi` hands back the
      64-bit maximum with its range error, and the offset wraps negative. */
  lemma OversizedPageWrapsOffset(pageText: string)
    requires AllDigits(pageText) && |pageText| == 20 && pageText[0] == '9'
    ensures HistoryPaging(pageText, Itoa(100)).offset < 0
  {
    AtoiOfItoa(100);
    TwentyDigitsOverflow(pageText);
    assert Atoi(pageText) == Conversion(MaxInt64, Some(RangeError)) by {
      assert Unsigned(pageText) == pageText;
      assert DigitRunLength(pageText) == 20;
      assert pageText[..20] == pageText;
    }
  }
}

=== FILE: ledger.dfy ===
/** The wallet's database as an immutable value: account balances, the
    append-only transactions and postings, and the idempotency-key index. The
    balance-update trigger is modelled by `ApplyPosting`: inserting a posting
    adds its signed amount to its account's balance. Commit and rollback become
    "the new state or the old one". */
module Ledger {
  import opened Wrappers
  import opened Errors
  import opened Models

  /** external_id of the system account that is the counter-leg of deposits and withdrawals. */
  const ReserveExternalId := "sys_reserve"

  datatype State = State(
    balances: map<int, int>,          // accounts.id -> accounts.balance
    owners: map<int, int>,            // accounts.user_id -> accounts.id
    reserve: Option<int>,             // accounts.id of 'sys_reserve', if present
    transactions: seq<Transaction>,   // transactions, in id order
    postings: seq<Posting>,           // postings, in insertion order
    keys: map<string, int>)           // transactions.idempotency_key -> transactions.id

  /** A service's reply and the database state it leaves behind. */
  datatype Reply = Reply(result: Result<TransactionResponse, Error>, after: State)

  /** The database calls an operation makes, any one of which may fail. Every
      operation takes `fault`, the call that fails in this run, if any. */
  datatype Step =
    | IdempotencyCheck     // key lookup outside any unit of work
    | AccountRead          // account/balance lookup outside any unit of work
    | Begin                // opening the unit of work
    | KeyLookup            // key lookup inside the unit of work
    | ReplayBalanceRead    // balance read on the repository's replay path
    | UserLookup           // the user's account row
    | ReserveLookup        // the 'sys_reserve' row
    | InsertTransaction
    | FirstPosting
    | SecondPosting
    | BalanceRead          // re-reading the balance after the postings
    | Commit

  predicate FailsAt(fault: Option<Step>, step: Step) {
    fault == Some(step)
  }

  /** Which postings a sum ranges over: one account's, or one transaction's. */
  datatype Selector = OfAccount(account: int) | OfTransaction(transaction: int)

  predicate Selects(sel: Selector, p: Posting) {
    match sel
    case OfAccount(a) => p.accountId == a
    case OfTransaction(t) => p.transactionId == t
  }

  /** The sum of the selected postings' amounts. */
  function Total(ps: seq<Posting>, sel: Selector): int {
    if |ps| == 0 then 0
    else Total(ps[..|ps| - 1], sel) + (if Selects(sel, ps[|ps| - 1]) then ps[|ps| - 1].amount else 0)
  }

  lemma TotalAppend(ps: seq<Posting>, p: Posting, sel: Selector)
    ensures Total(ps + [p], sel) == Total(ps, sel) + (if Selects(sel, p) then p.amount else 0)
  {
    assert (ps + [p])[..|ps|] == ps;
  }

  /** A transaction no posting refers to sums to zero. */
  lemma {:induction false} TotalOfUnseenTransaction(ps: seq<Posting>, t: int)
    requires forall i :: 0 <= i < |ps| ==> ps[i].transactionId < t
    ensures Total(ps, OfTransaction(t)) == 0
  {
    if |ps| > 0 {
      TotalOfUnseenTransaction(ps[..|ps| - 1], t);
    }
  }

  /** The id the next inserted transaction receives (ids are serial). */
  function NextTransactionId(s: State): int {
    |s.transactions| + 1
  }

  /** Referential integrity: what the schema's keys and constraints guarantee. */
  ghost predicate WellFormed(s: State) {
    AccountsWellFormed(s) && KeysWellFormed(s.transactions, s.keys) && PostingsWellFormed(s)
  }

  /** Every user account and the reserve exist; the reserve belongs to no
      user; no two users share an account. */
  ghost predicate AccountsWellFormed(s: State) {
    && (s.reserve.Some? ==> s.reserve.value in s.balances)
    && (forall u :: u in s.owners ==> s.owners[u] in s.balances && Some(s.owners[u]) != s.reserve)
    && (forall u, v :: u in s.owners && v in s.owners && u != v ==> s.owners[u] != s.owners[v])
  }

  /** Transaction ids are serial and the key index is a bijection onto them. */
  ghost predicate KeysWellFormed(txns: seq<Transaction>, keys: map<string, int>) {
    && (forall i :: 0 <= i < |txns| ==> txns[i].id == i + 1)
    && (forall i :: 0 <= i < |txns| ==> txns[i].idempotencyKey in keys && keys[txns[i].idempotencyKey] == i + 1)
    && (forall k :: k in keys ==> 1 <= keys[k] <= |txns| && txns[keys[k] - 1].idempotencyKey == k)
  }

  /** Every posting names an existing account and transaction. */
  ghost predicate PostingsWellFormed(s: State) {
    forall j :: 0 <= j < |s.postings| ==>
      s.postings[j].accountId in s.balances && 1 <= s.postings[j].transactionId <= |s.transactions|
  }

  /** The double-entry law: every transaction's postings sum to zero. */
  ghost predicate Balanced(s: State) {
    forall t :: 1 <= t <= |s.transactions| ==> Total(s.postings, OfTransaction(t)) == 0
  }

  /** Every balance is the running sum of its account's postings. */
  ghost predicate Consistent(s: State) {
    forall a :: a in s.balances ==> s.balances[a] == Total(s.postings, OfAccount(a))
  }

  /** No user account is overdrawn (system accounts may be). */
  ghost predicate Solvent(s: State)
    requires WellFormed(s)
  {
    forall u :: u in s.owners ==> s.balances[s.owners[u]] >= 0
  }

  ghost predicate Valid(s: State) {
    WellFormed(s) && Balanced(s) && Consistent(s) && Solvent(s)
  }

  /** The empty database with its accounts provisioned: every balance zero. */
  function Provisioned(accounts: set<int>, owners: map<int, int>, reserve: int): (s: State)
    requires reserve in accounts
    requires forall u :: u in owners ==> owners[u] in accounts && owners[u] != reserve
    requires forall u, v :: u in owners && v in owners && u != v ==> owners[u] != owners[v]
    ensures Valid(s)
    ensures s.balances.Keys == accounts && s.keys == map[] && s.postings == []
  {
    State(map a | a in accounts :: 0, owners, Some(reserve), [], [], map[])
  }

  /** Inserting one posting; the trigger adds its amount to its account. */
  function ApplyPosting(s: State, p: Posting): State
    requires p.accountId in s.balances
  {
    s.(balances := s.balances[p.accountId := s.balances[p.accountId] + p.amount],
       postings := s.postings + [p])
  }

  /** One committed unit of work: a posted transaction carrying `key`, a debit
      of `amount` on `debit` and a credit of `amount` on `credit`. */
  function PostDoubleEntry(s: State, key: string, reference: string, kind: string,
                           debit: int, credit: int, amount: int): (s': State)
    requires debit in s.balances && credit in s.balances && debit != credit
    ensures s'.transactions == s.transactions + [Transaction(NextTransactionId(s), key, reference, kind, StatusPosted)]
    ensures s'.keys == s.keys[key := NextTransactionId(s)]
    ensures s'.postings == s.postings + [Posting(NextTransactionId(s), debit, -amount),
                                         Posting(NextTransactionId(s), credit, amount)]
    ensures s'.balances.Keys == s.balances.Keys
    ensures s'.balances[debit] == s.balances[debit] - amount
    ensures s'.balances[credit] == s.balances[credit] + amount
    ensures forall a :: a in s.balances && a != debit && a != credit ==> s'.balances[a] == s.balances[a]
    ensures s'.owners == s.owners && s'.reserve == s.reserve
  {
    var id := NextTransactionId(s);
    var s1 := s.(transactions := s.transactions + [Transaction(id, key, reference, kind, StatusPosted)],
                 keys := s.keys[key := id]);
    var s2 := ApplyPosting(s1, Posting(id, debit, -amount));
    ApplyPosting(s2, Posting(id, credit, amount))
  }

  /** A committed double entry keeps every invariant, provided the debited
      account, if it belongs to a user, can cover the amount, and the credited
      one, if it belongs to a user, does not go below zero. */
  lemma PostDoubleEntryPreservesValid(s: State, key: string, reference: string, kind: string,
                                      debit: int, credit: int, amount: int)
    requires Valid(s)
    requires key !in s.keys
    requires debit in s.balances && credit in s.balances && debit != credit
    requires forall u :: u in s.owners && s.owners[u] == debit ==> s.balances[debit] >= amount
    requires forall u :: u in s.owners && s.owners[u] == credit ==> s.balances[credit] + amount >= 0
    ensures Valid(PostDoubleEntry(s, key, reference, kind, debit, credit, amount))
  {
    var s' := PostDoubleEntry(s, key, reference, kind, debit, credit, amount);
    PostDoubleEntryKeepsWellFormed(s, key, reference, kind, debit, credit, amount);
    PostDoubleEntryKeepsBalanced(s, key, reference, kind, debit, credit, amount);
    PostDoubleEntryKeepsConsistent(s, key, reference, kind, debit, credit, amount);
    assert Solvent(s');
  }

  lemma PostDoubleEntryKeepsWellFormed(s: State, key: string, reference: string, kind: string,
                                       debit: int, credit: int, amount: int)
    requires WellFormed(s)
    requires key !in s.keys
    requires debit in s.balances && credit in s.balances && debit != credit
    ensures WellFormed(PostDoubleEntry(s, key, reference, kind, debit, credit, amount))
  {
    var s' := PostDoubleEntry(s, key, reference, kind, debit, credit, amount);
    var txn := Transaction(NextTransactionId(s), key, reference, kind, StatusPosted);
    RecordKeepsKeysWellFormed(s.transactions, s.keys, txn);
    assert AccountsWellFormed(s');
    assert PostingsWellFormed(s');
  }

  /** Appending a transaction with the next id and a fresh key keeps the key index a bijection. */
  lemma RecordKeepsKeysWellFormed(txns: seq<Transaction>, keys: map<string, int>, txn: Transaction)
    requires KeysWellFormed(txns, keys)
    requires txn.id == |txns| + 1 && txn.idempotencyKey !in keys
    ensures KeysWellFormed(txns + [txn], keys[txn.idempotencyKey := txn.id])
  {
    var txns', keys' := txns + [txn], keys[txn.idempotencyKey := txn.id];
    forall i | 0 <= i < |txns'|
      ensures txns'[i].idempotencyKey in keys' && keys'[txns'[i].idempotencyKey] == i + 1
    {
      if i < |txns| {
        assert txns'[i] == txns[i];
      }
    }
    forall k | k in keys'
      ensures 1 <= keys'[k] <= |txns'| && txns'[keys'[k] - 1].idempotencyKey == k
    {
      if k != txn.idempotencyKey {
        assert txns'[keys[k] - 1] == txns[keys[k] - 1];
      }
    }
  }

  lemma PostDoubleEntryKeepsBalanced(s: State, key: string, reference: string, kind: string,
                                     debit: int, credit: int, amount: int)
    requires WellFormed(s) && Balanced(s)
    requires debit in s.balances && credit in s.balances && debit != credit
    ensures Balanced(PostDoubleEntry(s, key, reference, kind, debit, credit, amount))
  {
    var s' := PostDoubleEntry(s, key, reference, kind, debit, credit, amount);
    var id := NextTransactionId(s);
    var p1 := Posting(id, debit, -amount);
    var p2 := Posting(id, credit, amount);
    assert s'.postings == (s.postings + [p1]) + [p2];
    forall t | 1 <= t <= |s'.transactions|
      ensures Total(s'.postings, OfTransaction(t)) == 0
    {
      TotalAppend(s.postings, p1, OfTransaction(t));
      TotalAppend(s.postings + [p1], p2, OfTransaction(t));
      if t == id {
        TotalOfUnseenTransaction(s.postings, id);
      }
    }
  }

  lemma PostDoubleEntryKeepsConsistent(s: State, key: string, reference: string, kind: string,
                                       debit: int, credit: int, amount: int)
    requires Consistent(s)
    requires debit in s.balances && credit in s.balances && debit != credit
    ensures Consistent(PostDoubleEntry(s, key, reference, kind, debit, credit, amount))
  {
    var s' := PostDoubleEntry(s, key, reference, kind, debit, credit, amount);
    var id := NextTransactionId(s);
    var p1 := Posting(id, debit, -amount);
    var p2 := Posting(id, credit, amount);
    assert s'.postings == (s.postings + [p1]) + [p2];
    forall a | a in s'.balances
      ensures s'.balances[a] == Total(s'.postings, OfAccount(a))
    {
      TotalAppend(s.postings, p1, OfAccount(a));
      TotalAppend(s.postings + [p1], p2, OfAccount(a));
    }
  }
}

=== FILE: live_wallet_service.dfy ===
/** The wallet service the server is wired to (internal/services/wallet_services.go).
    Unlike the newer service it looks the key up before it validates the
    amount, delegates the unit of work to the repository, and wraps every
    repository error once more on the way out. */
module LiveWalletService {
  import opened Wrappers
  import opened Errors
  import opened Models
  import opened Ledger
  import Amounts
  import Repository

  const MinDepositAmount := 10000
  const MinWithdrawAmount := 10000
  const MaxTransactionAmount := 100000000

  /** `DepositRequest` / `WithdrawRequest`: the user id travels in the request. */
  datatype Request = Request(userId: int, amount: int, idempotencyKey: string, reference: string)

  const InvalidKey := Sentinel(ServicesPkg, InvalidIdempotencyKey)
  const NegativeBalanceDetected := Sentinel(ServicesPkg, NegativeBalance)

  /** Whether an error's root is one of this package's or the repository's
      sentinels, or a driver error: never the newer service's. */
  predicate FromLiveStack(e: Error) {
    var root := Root(e);
    root.Sentinel? ==> root.pkg != ServicePkg
  }

  function ValidateDepositAmount(amount: int): (r: Option<Error>)
    ensures r.None? <==> MinDepositAmount <= amount <= MaxTransactionAmount
    ensures amount <= 0 ==> r == Some(Sentinel(ServicesPkg, InvalidAmount))
    ensures 0 < amount < MinDepositAmount ==> r.Some? && Is(r.value, ServicesPkg, AmountTooSmall)
    ensures amount > MaxTransactionAmount ==> r.Some? && Is(r.value, ServicesPkg, AmountTooLarge)
  {
    Amounts.Check(ServicesPkg, MinDepositAmount, MaxTransactionAmount, amount,
                  "minimum deposit is 100.00", "maximum per transaction is 1000000.00")
  }

  function ValidateWithdrawAmount(amount: int): (r: Option<Error>)
    ensures r.None? <==> MinWithdrawAmount <= amount <= MaxTransactionAmount
    ensures amount <= 0 ==> r == Some(Sentinel(ServicesPkg, InvalidAmount))
    ensures 0 < amount < MinWithdrawAmount ==> r.Some? && Is(r.value, ServicesPkg, AmountTooSmall)
    ensures amount > MaxTransactionAmount ==> r.Some? && Is(r.value, ServicesPkg, AmountTooLarge)
  {
    Amounts.Check(ServicesPkg, MinWithdrawAmount, MaxTransactionAmount, amount,
                  "minimum withdrawal is 100.00", "maximum per transaction is 1000000.00")
  }

  /** `translateError`: one more layer of context, chosen by which repository
      sentinel the error carries; `errors.Is` still sees the same sentinel. */
  function TranslateError(e: Error): (r: Error)
    ensures r.Wrapped? && r.inner == e
    ensures Root(r) == Root(e)
    ensures forall pkg, kind :: Is(r, pkg, kind) <==> Is(e, pkg, kind)
    ensures Is(e, RepositoryPkg, AccountNotFound) ==> r.context == "account not found"
    ensures Is(e, RepositoryPkg, InsufficientBalance) ==> r.context == "insufficient balance for withdrawal"
    ensures Repository.IsRepositoryError(e) ==> FromLiveStack(r)
  {
    IsIffRoot(e, RepositoryPkg, AccountNotFound);
    IsIffRoot(e, RepositoryPkg, InsufficientBalance);
    if Is(e, RepositoryPkg, AccountNotFound) then Wrapped("account not found", e)
    else if Is(e, RepositoryPkg, InsufficientBalance) then Wrapped("insufficient balance for withdrawal", e)
    else if Is(e, RepositoryPkg, DuplicateIdempotencyKey) then Wrapped("duplicate transaction detected", e)
    else Wrapped("transaction failed, please try again", e)
  }

  /** The reply to a key that is already recorded: the existing transaction,
      with the balance read afresh. */
  function Replay(s: State, req: Request, txnId: int, fault: Option<Step>): (r: Result<TransactionResponse, Error>)
    requires WellFormed(s)
    ensures r.Ok? <==> !FailsAt(fault, AccountRead) && req.userId in s.owners
    ensures r.Ok? ==> r.value == TransactionResponse(txnId, StatusPosted, s.balances[s.owners[req.userId]], req.reference, true)
    ensures r.Err? && !FailsAt(fault, AccountRead) ==> Root(r.error) == Sentinel(RepositoryPkg, AccountNotFound)
  {
    match Repository.GetAccountByUserID(s, req.userId, fault)
    case Err(e) => Err(TranslateError(e))
    case Ok(row) => Ok(TransactionResponse(txnId, StatusPosted, row.balance, req.reference, true))
  }

  /** What happens after the repository returns: its error translated, or the
      negative-balance sanity check, or the posted response. */
  function Finish(req: Request, out: Repository.Outcome, s: State): (r: Reply)
    requires out.err.Some? ==> out.after == s
    ensures out.err.Some? ==> r == Reply(Err(TranslateError(out.err.value)), s)
    ensures out.err.None? && out.balance >= 0 ==>
              r == Reply(Ok(TransactionResponse(out.txnId, StatusPosted, out.balance, req.reference, false)), out.after)
    ensures out.err.None? && out.balance < 0 ==> r == Reply(Err(NegativeBalanceDetected), out.after)
    ensures r.result.Err? && (out.err.Some? ==> Repository.IsRepositoryError(out.err.value)) ==>
              FromLiveStack(r.result.error)
  {
    if out.err.Some? then Reply(Err(TranslateError(out.err.value)), s)
    else if out.balance < 0 then Reply(Err(NegativeBalanceDetected), out.after)
    else Reply(Ok(TransactionResponse(out.txnId, StatusPosted, out.balance, req.reference, false)), out.after)
  }

  /** The repository's deposit for a fresh key and a valid amount, and what
      the service makes of its outcome. */
  function PostDeposit(s: State, req: Request, fault: Option<Step>): (r: Reply)
    requires WellFormed(s) && req.idempotencyKey !in s.keys
    requires ValidateDepositAmount(req.amount).None?
    ensures fault == None && req.userId !in s.owners ==>
              r.after == s && r.result.Err? && Root(r.result.error) == Sentinel(RepositoryPkg, AccountNotFound)
    ensures r.after != s ==>
              && req.userId in s.owners && s.reserve.Some?
              && r.after == PostDoubleEntry(s, req.idempotencyKey, req.reference, KindDeposit,
                                            s.reserve.value, s.owners[req.userId], req.amount)
    ensures r.result.Ok? ==>
              && !r.result.value.replayed
              && req.userId in s.owners
              && r.result.value.transactionId == NextTransactionId(s)
              && r.result.value.balance == s.balances[s.owners[req.userId]] + req.amount
              && r.result.value.balance == r.after.balances[s.owners[req.userId]]
    ensures fault == None && req.userId in s.owners && s.reserve.Some? ==>
              && r.after == PostDoubleEntry(s, req.idempotencyKey, req.reference, KindDeposit,
                                            s.reserve.value, s.owners[req.userId], req.amount)
              && (s.balances[s.owners[req.userId]] + req.amount >= 0 ==> r.result.Ok?)
              && (s.balances[s.owners[req.userId]] + req.amount < 0 ==> r.result == Err(NegativeBalanceDetected))
    ensures r.result.Err? && r.result.error != NegativeBalanceDetected ==> r.after == s
    ensures Solvent(s) ==> r.result != Err(NegativeBalanceDetected)
    ensures r.result.Err? ==> FromLiveStack(r.result.error)
  {
    Finish(req, Repository.Deposit(s, req.userId, req.amount, req.idempotencyKey, req.reference, fault), s)
  }

  /** The repository's withdrawal for a fresh key and a valid amount, and
      what the service makes of its outcome. */
  function PostWithdraw(s: State, req: Request, fault: Option<Step>): (r: Reply)
    requires WellFormed(s) && req.idempotencyKey !in s.keys
    requires ValidateWithdrawAmount(req.amount).None?
    ensures fault == None && req.userId !in s.owners ==>
              r.after == s && r.result.Err? && Root(r.result.error) == Sentinel(RepositoryPkg, AccountNotFound)
    ensures fault == None && req.userId in s.owners && s.balances[s.owners[req.userId]] < req.amount ==>
              r.after == s && r.result.Err? && Root(r.result.error) == Sentinel(RepositoryPkg, InsufficientBalance)
    ensures r.after != s ==>
              && req.userId in s.owners && s.reserve.Some?
              && s.balances[s.owners[req.userId]] >= req.amount
              && r.after == PostDoubleEntry(s, req.idempotencyKey, req.reference, KindWithdraw,
                                            s.owners[req.userId], s.reserve.value, req.amount)
    ensures r.result.Ok? ==>
              && !r.result.value.replayed
              && req.userId in s.owners
              && r.result.value.transactionId == NextTransactionId(s)
              && r.result.value.balance == s.balances[s.owners[req.userId]] - req.amount
              && r.result.value.balance == r.after.balances[s.owners[req.userId]]
              && r.result.value.balance >= 0
    ensures fault == None && req.userId in s.owners && s.reserve.Some?
              && s.balances[s.owners[req.userId]] >= req.amount ==>
              && r.result.Ok?
              && r.after == PostDoubleEntry(s, req.idempotencyKey, req.reference, KindWithdraw,
                                            s.owners[req.userId], s.reserve.value, req.amount)
    ensures r.result.Err? ==> r.after == s
    ensures r.result != Err(NegativeBalanceDetected)
    ensures r.result.Err? ==> FromLiveStack(r.result.error)
  {
    Finish(req, Repository.Withdraw(s, req.userId, req.amount, req.idempotencyKey, req.reference, fault), s)
  }

  /** `Deposit`. */
  function Deposit(s: State, req: Request, fault: Option<Step>): (r: Reply)
    requires WellFormed(s)
    ensures req.idempotencyKey == "" ==> r == Reply(Err(InvalidKey), s)
    // A recorded key is answered before the amount is looked at.
    ensures req.idempotencyKey != "" && req.idempotencyKey in s.keys && fault == None && req.userId in s.owners ==>
              r == Reply(Ok(TransactionResponse(s.keys[req.idempotencyKey], StatusPosted,
                                                s.balances[s.owners[req.userId]], req.reference, true)), s)
    ensures req.idempotencyKey in s.keys ==> r.after == s
    // A fresh key with an invalid amount is refused by validation, untranslated.
    ensures req.idempotencyKey != "" && req.idempotencyKey !in s.keys && !FailsAt(fault, IdempotencyCheck)
              && ValidateDepositAmount(req.amount).Some? ==>
              r == Reply(Err(ValidateDepositAmount(req.amount).value), s)
    // A fresh key for a user without an account: the repository's sentinel, wrapped twice.
    ensures req.idempotencyKey != "" && req.idempotencyKey !in s.keys && fault == None
              && ValidateDepositAmount(req.amount).None? && req.userId !in s.owners ==>
              r.after == s && r.result.Err? && Root(r.result.error) == Sentinel(RepositoryPkg, AccountNotFound)
    ensures r.after != s ==>
              && req.idempotencyKey != "" && req.idempotencyKey !in s.keys
              && ValidateDepositAmount(req.amount).None?
              && req.userId in s.owners && s.reserve.Some?
              && r.after == PostDoubleEntry(s, req.idempotencyKey, req.reference, KindDeposit,
                                            s.reserve.value, s.owners[req.userId], req.amount)
    ensures r.result.Ok? && !r.result.value.replayed ==>
              && req.userId in s.owners
              && r.result.value.transactionId == NextTransactionId(s)
              && r.result.value.balance == s.balances[s.owners[req.userId]] + req.amount
              && r.result.value.balance == r.after.balances[s.owners[req.userId]]
    // Without a failure, a fresh key with a valid amount for a user who has an
    // account commits, and is reported unless the balance it leaves is negative.
    ensures req.idempotencyKey != "" && req.idempotencyKey !in s.keys && ValidateDepositAmount(req.amount).None?
              && fault == None && req.userId in s.owners && s.reserve.Some? ==>
              && r.after == PostDoubleEntry(s, req.idempotencyKey, req.reference, KindDeposit,
                                            s.reserve.value, s.owners[req.userId], req.amount)
              && (s.balances[s.owners[req.userId]] + req.amount >= 0 ==> r.result.Ok? && !r.result.value.replayed)
              && (s.balances[s.owners[req.userId]] + req.amount < 0 ==> r.result == Err(NegativeBalanceDetected))
    ensures r.result.Err? && r.result.error != NegativeBalanceDetected ==> r.after == s
    ensures Solvent(s) ==> r.result != Err(NegativeBalanceDetected)
    // Every error this stack produces roots in this package, the repository or the driver.
    ensures r.result.Err? ==> FromLiveStack(r.result.error)
  {
    var key := req.idempotencyKey;
    if key == "" then Reply(Err(InvalidKey), s)
    else
      var check := Repository.CheckIdempotency(s, key, fault);
      if check.err.Some? then Reply(Err(TranslateError(check.err.value)), s)
      else if check.found then Reply(Replay(s, req, check.txnId, fault), s)
      else if ValidateDepositAmount(req.amount).Some? then Reply(Err(ValidateDepositAmount(req.amount).value), s)
      else PostDeposit(s, req, fault)
  }

  /** `Withdraw`. */
  function Withdraw(s: State, req: Request, fault: Option<Step>): (r: Reply)
    requires WellFormed(s)
    ensures req.idempotencyKey == "" ==> r == Reply(Err(InvalidKey), s)
    ensures req.idempotencyKey != "" && req.idempotencyKey in s.keys && fault == None && req.userId in s.owners ==>
              r == Reply(Ok(TransactionResponse(s.keys[req.idempotencyKey], StatusPosted,
                                                s.balances[s.owners[req.userId]], req.reference, true)), s)
    ensures req.idempotencyKey in s.keys ==> r.after == s
    ensures req.idempotencyKey != "" && req.idempotencyKey !in s.keys && !FailsAt(fault, IdempotencyCheck)
              && ValidateWithdrawAmount(req.amount).Some? ==>
              r == Reply(Err(ValidateWithdrawAmount(req.amount).value), s)
    ensures req.idempotencyKey != "" && req.idempotencyKey !in s.keys && fault == None
              && ValidateWithdrawAmount(req.amount).None? && req.userId !in s.owners ==>
              r.after == s && r.result.Err? && Root(r.result.error) == Sentinel(RepositoryPkg, AccountNotFound)
    // A short balance: the repository's sentinel, wrapped twice, and nothing written.
    ensures req.idempotencyKey != "" && req.idempotencyKey !in s.keys && fault == None
              && ValidateWithdrawAmount(req.amount).None? && req.userId in s.owners
              && s.balances[s.owners[req.userId]] < req.amount ==>
              r.after == s && r.result.Err? && Root(r.result.error) == Sentinel(RepositoryPkg, InsufficientBalance)
    ensures r.after != s ==>
              && req.idempotencyKey != "" && req.idempotencyKey !in s.keys
              && ValidateWithdrawAmount(req.amount).None?
              && req.userId in s.owners && s.reserve.Some?
              && s.balances[s.owners[req.userId]] >= req.amount
              && r.after == PostDoubleEntry(s, req.idempotencyKey, req.reference, KindWithdraw,
                                            s.owners[req.userId], s.reserve.value, req.amount)
    ensures r.result.Ok? && !r.result.value.replayed ==>
              && req.userId in s.owners
              && r.result.value.transactionId == NextTransactionId(s)
              && r.result.value.balance == s.balances[s.owners[req.userId]] - req.amount
              && r.result.value.balance == r.after.balances[s.owners[req.userId]]
              && r.result.value.balance >= 0
    // Without a failure, a fresh key with a valid amount that the user's
    // balance covers commits.
    ensures req.idempotencyKey != "" && req.idempotencyKey !in s.keys && ValidateWithdrawAmount(req.amount).None?
              && fault == None && req.userId in s.owners && s.reserve.Some?
              && s.balances[s.owners[req.userId]] >= req.amount ==>
              && r.result.Ok? && !r.result.value.replayed
              && r.after == PostDoubleEntry(s, req.idempotencyKey, req.reference, KindWithdraw,
                                            s.owners[req.userId], s.reserve.value, req.amount)
    ensures r.result.Err? ==> r.after == s
    ensures r.result != Err(NegativeBalanceDetected)
    ensures r.result.Err? ==> FromLiveStack(r.result.error)
  {
    var key := req.idempotencyKey;
    if key == "" then Reply(Err(InvalidKey), s)
    else
      var check := Repository.CheckIdempotency(s, key, fault);
      if check.err.Some? then Reply(Err(TranslateError(check.err.value)), s)
      else if check.found then Reply(Replay(s, req, check.txnId, fault), s)
      else if ValidateWithdrawAmount(req.amount).Some? then Reply(Err(ValidateWithdrawAmount(req.amount).value), s)
      else PostWithdraw(s, req, fault)
  }

  /** `GetBalance`: the user's balance, or the translated repository error. */
  function GetBalance(s: State, userId: int, fault: Option<Step>): (r: Result<int, Error>)
    requires WellFormed(s)
    ensures r.Ok? <==> !FailsAt(fault, AccountRead) && userId in s.owners
    ensures r.Ok? ==> r.value == s.balances[s.owners[userId]]
    ensures r.Err? && fault == None ==> Root(r.error) == Sentinel(RepositoryPkg, AccountNotFound)
  {
    match Repository.GetAccountByUserID(s, userId, fault)
    case Err(e) => Err(TranslateError(e))
    case Ok(row) => Ok(row.balance)
  }

  /** For a recorded key the amount is never looked at: any two requests that
      differ only in amount get the same reply. */
  lemma ReplayIgnoresAmount(s: State, req: Request, amount: int, fault: Option<Step>)
    requires WellFormed(s)
    requires req.idempotencyKey != "" && req.idempotencyKey in s.keys && !FailsAt(fault, IdempotencyCheck)
    ensures Deposit(s, req.(amount := amount), fault) == Deposit(s, req, fault)
    ensures Withdraw(s, req.(amount := amount), fault) == Withdraw(s, req, fault)
  {
  }

  lemma DepositPreservesValid(s: State, req: Request, fault: Option<Step>)
    requires Valid(s)
    ensures Valid(Deposit(s, req, fault).after)
  {
    var r := Deposit(s, req, fault);
    if r.after != s {
      PostDoubleEntryPreservesValid(s, req.idempotencyKey, req.reference, KindDeposit,
                                    s.reserve.value, s.owners[req.userId], req.amount);
    }
  }

  lemma WithdrawPreservesValid(s: State, req: Request, fault: Option<Step>)
    requires Valid(s)
    ensures Valid(Withdraw(s, req, fault).after)
  {
    var r := Withdraw(s, req, fault);
    if r.after != s {
      PostDoubleEntryPreservesValid(s, req.idempotencyKey, req.reference, KindWithdraw,
                                    s.owners[req.userId], s.reserve.value, req.amount);
    }
  }

  /** Retrying a deposit that posted returns the same transaction and
      balance, and credits nothing more. */
  lemma DepositRetryIsReplay(s: State, req: Request)
    requires WellFormed(s)
    requires Deposit(s, req, None).result.Ok?
    ensures var first := Deposit(s, req, None);
            WellFormed(first.after) &&
            var again := Deposit(first.after, req, None);
            again.after == first.after
            && again.result.Ok? && again.result.value.replayed
            && again.result.value.transactionId == first.result.value.transactionId
            && again.result.value.balance == first.result.value.balance
  {
    var first := Deposit(s, req, None);
    if first.after != s {
      PostDoubleEntryKeepsWellFormed(s, req.idempotencyKey, req.reference, KindDeposit,
                                     s.reserve.value, s.owners[req.userId], req.amount);
    }
  }

  /** Retrying a withdrawal that posted returns the same transaction and
      balance, and takes no more money. */
  lemma WithdrawRetryIsReplay(s: State, req: Request)
    requires WellFormed(s)
    requires Withdraw(s, req, None).result.Ok?
    ensures var first := Withdraw(s, req, None);
            WellFormed(first.after) &&
            var again := Withdraw(first.after, req, None);
            again.after == first.after
            && again.result.Ok? && again.result.value.replayed
            && again.result.value.transactionId == first.result.value.transactionId
            && again.result.value.balance == first.result.value.balance
  {
    var first := Withdraw(s, req, None);
    if first.after != s {
      PostDoubleEntryKeepsWellFormed(s, req.idempotencyKey, req.reference, KindWithdraw,
                                     s.owners[req.userId], s.reserve.value, req.amount);
    }
  }
}

=== FILE: models.dfy ===
/** Transactions and postings of the double-entry ledger
    (internal/models/transaction.go): the kind and status vocabularies and the
    small predicates the code asks of them. */
module Models {

  // Transaction kinds.
  const KindP2P := "p2p"
  const KindDeposit := "deposit"
  const KindWithdraw := "withdrawal"
  const KindFee := "fee"
  const KindInterbank := "interbank"
  const KindRefund := "refund"

  // Transaction statuses.
  const StatusPending := "pending"
  const StatusPosted := "posted"
  const StatusFailed := "failed"
  const StatusReversed := "reversed"

  const Kinds := [KindP2P, KindDeposit, KindWithdraw, KindFee, KindInterbank, KindRefund]
  const Statuses := [StatusPending, StatusPosted, StatusFailed, StatusReversed]

  /** A logical transaction. Amount, currency, the from/to account columns and
      the timestamps are not modelled: no operation reads them back. */
  datatype Transaction = Transaction(
    id: int,
    idempotencyKey: string,
    reference: string,
    kind: string,
    status: string)
  {
    predicate IsPending() { status == StatusPending }
    predicate IsPosted() { status == StatusPosted }
    predicate IsFailed() { status == StatusFailed }
  }

  /** One signed entry against one account: positive credits, negative debits. */
  datatype Posting = Posting(transactionId: int, accountId: int, amount: int)
  {
    predicate IsCredit() { amount > 0 }
    predicate IsDebit() { amount < 0 }
  }

  /** What a deposit or withdrawal reports to its caller. `replayed` tells the
      "already processed" message apart from the "successfully ..." one. */
  datatype TransactionResponse = TransactionResponse(
    transactionId: int,
    status: string,
    balance: int,
    reference: string,
    replayed: bool)

  /** A deposit or withdrawal request: amount in kobo, the client's
      idempotency key and an optional reference. */
  datatype OperationRequest = OperationRequest(amount: int, idempotencyKey: string, reference: string)

  /** Whether two lists of string constants hold no value twice. */
  predicate Distinct(xs: seq<string>) {
    forall i, j :: 0 <= i < j < |xs| ==> xs[i] != xs[j]
  }

  /** The status predicates are mutually exclusive, and a reversed transaction
      satisfies none of them. */
  lemma StatusPredicatesExclusive(t: Transaction)
    ensures !(t.IsPending() && t.IsPosted())
    ensures !(t.IsPending() && t.IsFailed())
    ensures !(t.IsPosted() && t.IsFailed())
    ensures t.status == StatusReversed ==> !t.IsPending() && !t.IsPosted() && !t.IsFailed()
  {
  }

  /** Every posting is a credit, a debit, or (amount zero) neither; never both. */
  lemma CreditDebitExclusive(p: Posting)
    ensures !(p.IsCredit() && p.IsDebit())
    ensures p.IsCredit() || p.IsDebit() <==> p.amount != 0
  {
  }

  /** The kind and status vocabularies hold no duplicate. */
  lemma ConstantsDistinct()
    ensures Distinct(Kinds) && |Kinds| == 6
    ensures Distinct(Statuses) && |Statuses| == 4
  {
  }
}

=== FILE: repository.dfy ===
/** The wallet repository the server is wired to
    (internal/repository/wallet_repository.go): each operation runs in one unit
    of work whose deferred rollback discards every write unless the commit is
    reached and succeeds. */
module Repository {
  import opened Wrappers
  import opened Errors
  import opened Models
  import opened Ledger

  /** Go's `(transactionID, balance, err)`, together with the state after the call. */
  datatype Outcome = Outcome(txnId: int, balance: int, err: Option<Error>, after: State)

  /** `CheckIdempotency`'s `(transactionID, alreadyExists, err)`. */
  datatype KeyCheck = KeyCheck(txnId: int, found: bool, err: Option<Error>)

  /** An account row: its id and balance. */
  datatype AccountRow = AccountRow(id: int, balance: int)

  /** The errors the repository returns: one of the sentinels it declares, or
      a driver error with one layer of context. */
  predicate IsRepositoryError(e: Error) {
    || (e.Sentinel? && e.pkg == RepositoryPkg && Declares(RepositoryPkg, e.kind))
    || (e.Wrapped? && e.inner.Opaque?)
  }

  /** An early return: the deferred rollback leaves the state as it was. */
  function Abort(s: State, balance: int, e: Error): Outcome {
    Outcome(0, balance, Some(e), s)
  }

  /** `CheckIdempotency`: the id of the transaction already carrying `key`, if any. */
  function CheckIdempotency(s: State, key: string, fault: Option<Step>): (r: KeyCheck)
    ensures FailsAt(fault, IdempotencyCheck) ==>
              r.err == Some(Wrapped("failed to check idempotency", DbFailure)) && !r.found && r.txnId == 0
    ensures !FailsAt(fault, IdempotencyCheck) ==> r.err.None? && (r.found <==> key in s.keys)
    ensures r.err.None? && !r.found ==> r.txnId == 0
    ensures r.err.Some? ==> IsRepositoryError(r.err.value)
    ensures r.found ==> key in s.keys && r.txnId == s.keys[key]
    ensures WellFormed(s) && r.found ==>
              1 <= r.txnId <= |s.transactions| && s.transactions[r.txnId - 1].idempotencyKey == key
  {
    if FailsAt(fault, IdempotencyCheck) then KeyCheck(0, false, Some(Wrapped("failed to check idempotency", DbFailure)))
    else if key in s.keys then KeyCheck(s.keys[key], true, None)
    else KeyCheck(0, false, None)
  }

  /** `GetAccountByUserID`: the user's account row, or the repository's not-found sentinel. */
  function GetAccountByUserID(s: State, userId: int, fault: Option<Step>): (r: Result<AccountRow, Error>)
    requires WellFormed(s)
    ensures FailsAt(fault, AccountRead) ==> r == Err(Wrapped("failed to get account", DbFailure))
    ensures !FailsAt(fault, AccountRead) && userId !in s.owners ==> r == Err(Sentinel(RepositoryPkg, AccountNotFound))
    ensures r.Ok? <==> !FailsAt(fault, AccountRead) && userId in s.owners
    ensures r.Err? ==> IsRepositoryError(r.error)
    ensures r.Ok? ==> r.value.id == s.owners[userId] && r.value.balance == s.balances[s.owners[userId]]
  {
    if FailsAt(fault, AccountRead) then Err(Wrapped("failed to get account", DbFailure))
    else if userId !in s.owners then Err(Sentinel(RepositoryPkg, AccountNotFound))
    else Ok(AccountRow(s.owners[userId], s.balances[s.owners[userId]]))
  }

  /** The replay path's balance: the read's error is discarded, so a missing
      account or a failed read reports 0. */
  function ReplayBalance(s: State, userId: int, fault: Option<Step>): int
    requires WellFormed(s)
  {
    if !FailsAt(fault, ReplayBalanceRead) && userId in s.owners then s.balances[s.owners[userId]] else 0
  }

  /** The write steps after both account rows are found, with the context each
      failure is wrapped in. Returns None when none of them fails. */
  function WriteFailure(fault: Option<Step>, firstPosting: string, secondPosting: string): Option<Error> {
    if FailsAt(fault, InsertTransaction) then Some(Wrapped("failed to create transaction", DbFailure))
    else if FailsAt(fault, FirstPosting) then Some(Wrapped(firstPosting, DbFailure))
    else if FailsAt(fault, SecondPosting) then Some(Wrapped(secondPosting, DbFailure))
    else if FailsAt(fault, BalanceRead) then Some(Wrapped("failed to get updated balance", DbFailure))
    else if FailsAt(fault, Commit) then Some(Wrapped("failed to commit transaction", DbFailure))
    else None
  }

  /** `Deposit`: move `amount` from the reserve to the user's account. */
  function Deposit(s: State, userId: int, amount: int, key: string, reference: string,
                   fault: Option<Step>): (r: Outcome)
    requires WellFormed(s)
    // Every failure leaves the ledger untouched.
    ensures r.err.Some? ==> r.after == s && r.txnId == 0 && IsRepositoryError(r.err.value)
    // A known key replays its transaction and writes nothing.
    ensures key in s.keys && !FailsAt(fault, Begin) && !FailsAt(fault, KeyLookup) ==>
              r == Outcome(s.keys[key], ReplayBalance(s, userId, fault), None, s)
    // A fresh key for a user without an account.
    ensures key !in s.keys && userId !in s.owners && fault == None ==>
              r.err == Some(Sentinel(RepositoryPkg, AccountNotFound))
    // Without failures, a fresh key commits exactly when both accounts exist.
    ensures fault == None && key !in s.keys ==> (r.err.None? <==> userId in s.owners && s.reserve.Some?)
    // A commit is one balanced pair: the reserve debited, the user credited,
    // and the balance reported is the user's balance after both postings.
    ensures r.err.None? && key !in s.keys ==>
              && userId in s.owners && s.reserve.Some?
              && r.txnId == NextTransactionId(s)
              && r.after == PostDoubleEntry(s, key, reference, KindDeposit, s.reserve.value, s.owners[userId], amount)
              && r.balance == r.after.balances[s.owners[userId]] == s.balances[s.owners[userId]] + amount
    ensures r.after != s ==> key !in s.keys && r.err.None?
  {
    if FailsAt(fault, Begin) then Abort(s, 0, Wrapped("failed to begin transaction", DbFailure))
    else if FailsAt(fault, KeyLookup) then Abort(s, 0, Wrapped("failed to check idempotency", DbFailure))
    else if key in s.keys then Outcome(s.keys[key], ReplayBalance(s, userId, fault), None, s)
    else if FailsAt(fault, UserLookup) then Abort(s, 0, Wrapped("failed to get user account", DbFailure))
    else if userId !in s.owners then Abort(s, 0, Sentinel(RepositoryPkg, AccountNotFound))
    else if FailsAt(fault, ReserveLookup) then Abort(s, 0, Wrapped("failed to get reserve account", DbFailure))
    else if s.reserve.None? then Abort(s, 0, Wrapped("failed to get reserve account", NoRows))
    else
      var failure := WriteFailure(fault, "failed to create reserve posting", "failed to create user posting");
      if failure.Some? then Abort(s, 0, failure.value)
      else
        var user := s.owners[userId];
        var s' := PostDoubleEntry(s, key, reference, KindDeposit, s.reserve.value, user, amount);
        Outcome(NextTransactionId(s), s'.balances[user], None, s')
  }

  /** `Withdraw`: move `amount` from the user's account to the reserve, if the
      balance covers it. */
  function Withdraw(s: State, userId: int, amount: int, key: string, reference: string,
                    fault: Option<Step>): (r: Outcome)
    requires WellFormed(s)
    ensures r.err.Some? ==> r.after == s && r.txnId == 0 && IsRepositoryError(r.err.value)
    ensures key in s.keys && !FailsAt(fault, Begin) && !FailsAt(fault, KeyLookup) ==>
              r == Outcome(s.keys[key], ReplayBalance(s, userId, fault), None, s)
    ensures key !in s.keys && userId !in s.owners && fault == None ==>
              r.err == Some(Sentinel(RepositoryPkg, AccountNotFound))
    // A short balance is refused, and the unchanged balance is reported with the error.
    ensures key !in s.keys && userId in s.owners && s.balances[s.owners[userId]] < amount
              && !FailsAt(fault, Begin) && !FailsAt(fault, KeyLookup) && !FailsAt(fault, UserLookup) ==>
              r == Outcome(0, s.balances[s.owners[userId]], Some(Sentinel(RepositoryPkg, InsufficientBalance)), s)
    ensures fault == None && key !in s.keys ==>
              (r.err.None? <==> userId in s.owners && s.balances[s.owners[userId]] >= amount && s.reserve.Some?)
    // A commit is one balanced pair: the user debited, the reserve credited,
    // and the balance reported is what is left, never below zero.
    ensures r.err.None? && key !in s.keys ==>
              && userId in s.owners && s.reserve.Some?
              && s.balances[s.owners[userId]] >= amount
              && r.txnId == NextTransactionId(s)
              && r.after == PostDoubleEntry(s, key, reference, KindWithdraw, s.owners[userId], s.reserve.value, amount)
              && r.balance == r.after.balances[s.owners[userId]] == s.balances[s.owners[userId]] - amount
              && r.balance >= 0
    ensures r.after != s ==> key !in s.keys && r.err.None?
  {
    if FailsAt(fault, Begin) then Abort(s, 0, Wrapped("failed to begin transaction", DbFailure))
    else if FailsAt(fault, KeyLookup) then Abort(s, 0, Wrapped("failed to check idempotency", DbFailure))
    else if key in s.keys then Outcome(s.keys[key], ReplayBalance(s, userId, fault), None, s)
    else if FailsAt(fault, UserLookup) then Abort(s, 0, Wrapped("failed to get user account", DbFailure))
    else if userId !in s.owners then Abort(s, 0, Sentinel(RepositoryPkg, AccountNotFound))
    else
      var user := s.owners[userId];
      var current := s.balances[user];
      if current < amount then Abort(s, current, Sentinel(RepositoryPkg, InsufficientBalance))
      else if FailsAt(fault, ReserveLookup) then Abort(s, 0, Wrapped("failed to get reserve account", DbFailure))
      else if s.reserve.None? then Abort(s, 0, Wrapped("failed to get reserve account", NoRows))
      else
        var failure := WriteFailure(fault, "failed to create user posting", "failed to create reserve posting");
        if failure.Some? then Abort(s, 0, failure.value)
        else
          var s' := PostDoubleEntry(s, key, reference, KindWithdraw, user, s.reserve.value, amount);
          Outcome(NextTransactionId(s), s'.balances[user], None, s')
  }

  /** A deposit of a non-negative amount keeps every ledger invariant. */
  lemma DepositPreservesValid(s: State, userId: int, amount: int, key: string, reference: string,
                              fault: Option<Step>)
    requires Valid(s) && amount >= 0
    ensures Valid(Deposit(s, userId, amount, key, reference, fault).after)
  {
    var r := Deposit(s, userId, amount, key, reference, fault);
    if r.after != s {
      PostDoubleEntryPreservesValid(s, key, reference, KindDeposit, s.reserve.value, s.owners[userId], amount);
    }
  }

  /** A withdrawal keeps every ledger invariant, whatever the amount: the
      balance check is what keeps the user's account out of the red. */
  lemma WithdrawPreservesValid(s: State, userId: int, amount: int, key: string, reference: string,
                               fault: Option<Step>)
    requires Valid(s)
    ensures Valid(Withdraw(s, userId, amount, key, reference, fault).after)
  {
    var r := Withdraw(s, userId, amount, key, reference, fault);
    if r.after != s {
      PostDoubleEntryPreservesValid(s, key, reference, KindWithdraw, s.owners[userId], s.reserve.value, amount);
    }
  }

  /** Retrying a committed deposit with the same key returns the same
      transaction id and balance and writes nothing, whatever amount and
      reference the retry carries. */
  lemma DepositRetryIsReplay(s: State, userId: int, amount: int, key: string, reference: string,
                             amount': int, reference': string)
    requires WellFormed(s)
    requires Deposit(s, userId, amount, key, reference, None).err.None?
    ensures var first := Deposit(s, userId, amount, key, reference, None);
            WellFormed(first.after) &&
            var again := Deposit(first.after, userId, amount', key, reference', None);
            again.txnId == first.txnId && again.balance == first.balance && again.after == first.after
  {
    var first := Deposit(s, userId, amount, key, reference, None);
    if key !in s.keys {
      PostDoubleEntryKeepsWellFormed(s, key, reference, KindDeposit, s.reserve.value, s.owners[userId], amount);
    }
  }

  /** The same for withdrawals. */
  lemma WithdrawRetryIsReplay(s: State, userId: int, amount: int, key: string, reference: string,
                              amount': int, reference': string)
    requires WellFormed(s)
    requires Withdraw(s, userId, amount, key, reference, None).err.None?
    ensures var first := Withdraw(s, userId, amount, key, reference, None);
            WellFormed(first.after) &&
            var again := Withdraw(first.after, userId, amount', key, reference', None);
            again.txnId == first.txnId && again.balance == first.balance && again.after == first.after
  {
    var first := Withdraw(s, userId, amount, key, reference, None);
    if key !in s.keys {
      PostDoubleEntryKeepsWellFormed(s, key, reference, KindWithdraw, s.owners[userId], s.reserve.value, amount);
    }
  }
}

=== FILE: users.dfy ===
/** The wallet user and its public view (internal/models/user.go). Nullable
    columns are `Option`s; the current instant is a parameter. */
module Users {
  import opened Wrappers
  import opened Clock

  datatype User = User(
    id: int,
    name: string,
    phone: string,
    email: string,
    passwordHash: string,
    username: Option<string>,
    pinHash: Option<string>,
    isEmailVerified: bool,
    isActive: bool,
    onboardingCompleted: bool,
    failedLoginAttempts: int,
    lockedUntil: Option<Instant>,
    createdAt: Instant,
    updatedAt: Instant,
    lastLoginAt: Option<Instant>)

  /** The client-safe view: no password hash, PIN hash, lock or attempt counters. */
  datatype PublicUser = PublicUser(
    id: int,
    name: string,
    phone: string,
    email: string,
    username: Option<string>,
    isEmailVerified: bool,
    onboardingCompleted: bool,
    createdAt: Instant,
    lastLoginAt: Option<Instant>)

  /** A stored login session. */
  datatype LoginSession = LoginSession(
    id: int,
    userId: int,
    expiresAt: Instant,
    revokedAt: Option<Instant>)

  /** `ToPublic`: the identity and profile fields unchanged; the nullable ones
      present exactly when the stored column is set. */
  function ToPublic(u: User): (p: PublicUser)
    ensures p.id == u.id && p.name == u.name && p.phone == u.phone && p.email == u.email
    ensures p.isEmailVerified == u.isEmailVerified
    ensures p.onboardingCompleted == u.onboardingCompleted
    ensures p.createdAt == u.createdAt
    ensures p.username.Some? <==> u.username.Some?
    ensures u.username.Some? ==> p.username.value == u.username.value
    ensures p.lastLoginAt.Some? <==> u.lastLoginAt.Some?
    ensures u.lastLoginAt.Some? ==> p.lastLoginAt.value == u.lastLoginAt.value
  {
    PublicUser(u.id, u.name, u.phone, u.email, u.username, u.isEmailVerified,
               u.onboardingCompleted, u.createdAt, u.lastLoginAt)
  }

  /** Users that differ only in secrets and security counters look the same
      to a client: the public view leaks none of them. */
  lemma ToPublicHidesSecrets(u: User, hash: string, pin: Option<string>, attempts: int,
                             locked: Option<Instant>, active: bool, updated: Instant)
    ensures ToPublic(u) == ToPublic(u.(passwordHash := hash, pinHash := pin,
                                       failedLoginAttempts := attempts, lockedUntil := locked,
                                       isActive := active, updatedAt := updated))
  {
  }

  predicate HasUsername(u: User) {
    u.username.Some? && u.username.value != ""
  }

  predicate HasPin(u: User) {
    u.pinHash.Some? && u.pinHash.value != ""
  }

  /** `IsLocked`: a lock is set and ends strictly after `now`. */
  predicate IsLocked(u: User, now: Instant) {
    u.lockedUntil.Some? && After(u.lockedUntil.value, now)
  }

  /** `LoginSession.IsValid`: not revoked and not yet expired. */
  predicate SessionIsValid(s: LoginSession, now: Instant) {
    s.revokedAt.None? && Before(now, s.expiresAt)
  }

  /** A user with a username shows it in the public view. */
  lemma HasUsernameIsPublic(u: User)
    requires HasUsername(u)
    ensures ToPublic(u).username == Some(u.username.value)
    ensures ToPublic(u).username.value != ""
  {
  }

  /** A lock holds for every instant before its end and for none from its end
      on: locked at `now` means locked at every earlier instant, and a lock
      ending at `until` is over at `until`. */
  lemma LockWindow(u: User, now: Instant, earlier: Instant)
    requires IsLocked(u, now) && earlier <= now
    ensures IsLocked(u, earlier)
    ensures !IsLocked(u, u.lockedUntil.value)
  {
  }

  /** A session valid at `now` was valid at every earlier instant, and never
      at or after its expiry. */
  lemma SessionWindow(s: LoginSession, now: Instant, earlier: Instant)
    requires SessionIsValid(s, now) && earlier <= now
    ensures SessionIsValid(s, earlier)
    ensures !SessionIsValid(s, s.expiresAt)
  {
  }
}

=== FILE: verification.dfy ===
/** One-time verification codes (internal/models/verification.go), with the
    current instant passed in. */
module Verification {
  import opened Wrappers
  import opened Clock

  const OTPLength := 6
  const OTPExpiryMinutes := 10
  const OTPMaxAttempts := 5
  const OTPResendCooldown: Duration := 60 * Second

  datatype VerificationCode = VerificationCode(
    id: int,
    email: string,
    code: string,
    purpose: string,
    expiresAt: Instant,
    usedAt: Option<Instant>,
    attempts: int,
    createdAt: Instant)

  /** `IsExpired`: `now` is strictly after the expiry. */
  predicate IsExpired(v: VerificationCode, now: Instant) {
    After(now, v.expiresAt)
  }

  /** `IsUsed`: a use has been recorded. */
  predicate IsUsed(v: VerificationCode) {
    v.usedAt.Some?
  }

  /** `IsValid`: unexpired, unused, and fewer than five attempts (the source
      writes the literal 5). */
  predicate IsValid(v: VerificationCode, now: Instant) {
    !IsExpired(v, now) && !IsUsed(v) && v.attempts < 5
  }

  /** The literal in `IsValid` agrees with `OTPMaxAttempts`: a code is usable
      exactly while its attempts stay under the configured maximum, so the
      attempt that reaches the maximum retires it. */
  lemma ValidityMatchesMaxAttempts(v: VerificationCode, now: Instant)
    ensures IsValid(v, now) <==> !IsExpired(v, now) && !IsUsed(v) && v.attempts < OTPMaxAttempts
    ensures v.attempts >= OTPMaxAttempts ==> !IsValid(v, now)
  {
  }

  /** A code issued at `issued` with the standard expiry stays valid, while
      unused and under the attempt limit, up to and including its expiry
      instant, and is invalid at every later instant. */
  lemma ValidityWindow(v: VerificationCode, issued: Instant, now: Instant)
    requires v.expiresAt == issued + OTPExpiryMinutes * Minute
    requires !IsUsed(v) && v.attempts < OTPMaxAttempts
    ensures issued <= now <= issued + 10 * Minute ==> IsValid(v, now)
    ensures now > issued + 10 * Minute ==> !IsValid(v, now)
  {
  }

  /** Validity only ever ends: valid at `now` means valid at every earlier instant. */
  lemma ValidityIsMonotone(v: VerificationCode, now: Instant, earlier: Instant)
    requires IsValid(v, now) && earlier <= now
    ensures IsValid(v, earlier)
  {
  }
}

=== FILE: versions.dfy ===
/** The two orchestrations side by side: the newer service
    (internal/service/wallet_service.go) and the one the server is wired to
    (internal/services/wallet_services.go). They write the same ledger for a
    fresh, valid request and part ways on a recorded key that arrives with an
    amount that would fail validation. */
module Versions {
  import opened Wrappers
  import opened Errors
  import opened Models
  import opened Ledger
  import WalletService
  import LiveWalletService

  /** The same request as each service receives it. */
  function AsLive(userId: int, req: OperationRequest): LiveWalletService.Request {
    LiveWalletService.Request(userId, req.amount, req.idempotencyKey, req.reference)
  }

  /** Both services accept the same amounts. */
  lemma SameValidation(amount: int)
    ensures WalletService.ValidateDepositAmount(amount).None? <==> LiveWalletService.ValidateDepositAmount(amount).None?
    ensures WalletService.ValidateWithdrawAmount(amount).None? <==> LiveWalletService.ValidateWithdrawAmount(amount).None?
  {
  }

  /** A fresh key with a valid amount and no failing call: both deposits
      leave the same ledger and either both succeed with the same response
      or both fail. */
  lemma DepositsAgreeWhenFresh(s: State, userId: int, req: OperationRequest)
    requires WellFormed(s)
    requires req.idempotencyKey != "" && req.idempotencyKey !in s.keys
    requires WalletService.ValidateDepositAmount(req.amount).None?
    ensures var newer := WalletService.Deposit(s, userId, req, None);
            var live := LiveWalletService.Deposit(s, AsLive(userId, req), None);
            && newer.after == live.after
            && (newer.result.Ok? <==> live.result.Ok?)
            && (newer.result.Ok? ==> newer.result == live.result)
  {
  }

  /** The same for withdrawals. */
  lemma WithdrawalsAgreeWhenFresh(s: State, userId: int, req: OperationRequest)
    requires WellFormed(s)
    requires req.idempotencyKey != "" && req.idempotencyKey !in s.keys
    requires WalletService.ValidateWithdrawAmount(req.amount).None?
    ensures var newer := WalletService.Withdraw(s, userId, req, None);
            var live := LiveWalletService.Withdraw(s, AsLive(userId, req), None);
            && newer.after == live.after
            && (newer.result.Ok? <==> live.result.Ok?)
            && (newer.result.Ok? ==> newer.result == live.result)
  {
  }

  /** A recorded key with an amount that fails validation: the newer service
      refuses it, the live one replays the recorded transaction. Neither
      writes. */
  lemma ReplayedKeyWithInvalidAmount(s: State, userId: int, req: OperationRequest)
    requires WellFormed(s)
    requires req.idempotencyKey != "" && req.idempotencyKey in s.keys && userId in s.owners
    requires WalletService.ValidateDepositAmount(req.amount).Some?
    ensures var newer := WalletService.Deposit(s, userId, req, None);
            var live := LiveWalletService.Deposit(s, AsLive(userId, req), None);
            && newer.after == s && live.after == s
            && newer.result.Err? && Root(newer.result.error).Sentinel?
            && Root(newer.result.error).kind in {InvalidAmount, AmountTooSmall, AmountTooLarge}
            && live.result == Ok(TransactionResponse(s.keys[req.idempotencyKey], StatusPosted,
                                                     s.balances[s.owners[userId]], req.reference, true))
  {
    var e := WalletService.ValidateDepositAmount(req.amount).value;
    if req.amount <= 0 {
    } else if req.amount < WalletService.MinDepositAmount {
      IsIffRoot(e, ServicePkg, AmountTooSmall);
    } else {
      IsIffRoot(e, ServicePkg, AmountTooLarge);
    }
  }
}

=== FILE: wallet_service.dfy ===
/** The newer wallet service (internal/service/wallet_service.go), the one its
    unit tests exercise. It validates the key and the amount before looking the
    key up, then runs the deposit or withdrawal in one unit of work holding the
    user's row lock, and computes the new balance from the locked row. */
module WalletService {
  import opened Wrappers
  import opened Errors
  import opened Models
  import opened Ledger
  import Amounts
  import opened GoInt

  const MinDepositAmount := 10000
  const MinWithdrawAmount := 10000
  const MinTransferAmount := 10000
  const MaxTransactionAmount := 100000000
  const DefaultTransferFee := 0

  /** What a unit of work commits: the new transaction's id and the computed balance. */
  datatype Committed = Committed(txnId: int, balance: int)

  /** Normalised history paging: the page, the page size and the row offset. */
  datatype Page = Page(page: int, perPage: int, offset: int)

  const InvalidKey := Sentinel(ServicePkg, InvalidIdempotencyKey)
  const NegativeBalanceDetected := Sentinel(ServicePkg, NegativeBalance)

  function ValidateDepositAmount(amount: int): (r: Option<Error>)
    ensures r.None? <==> MinDepositAmount <= amount <= MaxTransactionAmount
    ensures amount <= 0 ==> r == Some(Sentinel(ServicePkg, InvalidAmount))
    ensures 0 < amount < MinDepositAmount ==> r.Some? && Is(r.value, ServicePkg, AmountTooSmall)
    ensures amount > MaxTransactionAmount ==> r.Some? && Is(r.value, ServicePkg, AmountTooLarge)
  {
    Amounts.Check(ServicePkg, MinDepositAmount, MaxTransactionAmount, amount,
                  "minimum deposit is 100.00", "maximum per transaction is 1000000.00")
  }

  function ValidateWithdrawAmount(amount: int): (r: Option<Error>)
    ensures r.None? <==> MinWithdrawAmount <= amount <= MaxTransactionAmount
    ensures amount <= 0 ==> r == Some(Sentinel(ServicePkg, InvalidAmount))
    ensures 0 < amount < MinWithdrawAmount ==> r.Some? && Is(r.value, ServicePkg, AmountTooSmall)
    ensures amount > MaxTransactionAmount ==> r.Some? && Is(r.value, ServicePkg, AmountTooLarge)
  {
    Amounts.Check(ServicePkg, MinWithdrawAmount, MaxTransactionAmount, amount,
                  "minimum withdrawal is 100.00", "maximum per transaction is 1000000.00")
  }

  function ValidateTransferAmount(amount: int): (r: Option<Error>)
    ensures r.None? <==> MinTransferAmount <= amount <= MaxTransactionAmount
    ensures amount <= 0 ==> r == Some(Sentinel(ServicePkg, InvalidAmount))
    ensures 0 < amount < MinTransferAmount ==> r.Some? && Is(r.value, ServicePkg, AmountTooSmall)
    ensures amount > MaxTransactionAmount ==> r.Some? && Is(r.value, ServicePkg, AmountTooLarge)
  {
    Amounts.Check(ServicePkg, MinTransferAmount, MaxTransactionAmount, amount,
                  "minimum transfer is 100.00", "maximum per transaction is 1000000.00")
  }

  /** The boundary cases the service's tests pin down: both exact bounds are
      accepted and one past either bound is refused. */
  lemma DepositBoundaries()
    ensures ValidateDepositAmount(MinDepositAmount).None?
    ensures ValidateDepositAmount(MaxTransactionAmount).None?
    ensures ValidateDepositAmount(MinDepositAmount - 1).Some?
    ensures ValidateDepositAmount(MaxTransactionAmount + 1).Some?
    ensures ValidateDepositAmount(0) == Some(Sentinel(ServicePkg, InvalidAmount))
    ensures ValidateDepositAmount(-1000) == Some(Sentinel(ServicePkg, InvalidAmount))
  {
  }

  /** The reply for a key that already names a transaction. The helper that
      builds it is not part of this model; it is taken to report the existing
      id as posted with the user's current balance, as the service's tests
      expect, and not-found when the user has no account. */
  function IdempotentResponse(s: State, txnId: int, userId: int, reference: string,
                              fault: Option<Step>): (r: Result<TransactionResponse, Error>)
    requires WellFormed(s)
    ensures r.Ok? <==> !FailsAt(fault, AccountRead) && userId in s.owners
    ensures r.Ok? ==> r.value == TransactionResponse(txnId, StatusPosted, s.balances[s.owners[userId]], reference, true)
  {
    if FailsAt(fault, AccountRead) then Err(DbFailure)
    else if userId !in s.owners then Err(Sentinel(ServicePkg, AccountNotFound))
    else Ok(TransactionResponse(txnId, StatusPosted, s.balances[s.owners[userId]], reference, true))
  }

  /** The failure, if any, among the writes after both rows are locked. */
  function WriteFailure(fault: Option<Step>): Option<Error> {
    if FailsAt(fault, InsertTransaction) || FailsAt(fault, FirstPosting) || FailsAt(fault, SecondPosting) then Some(DbFailure)
    else if FailsAt(fault, Commit) then Some(Wrapped("failed to commit", DbFailure))
    else None
  }

  /** `executeDeposit`: lock the user's row, then the reserve's; post the
      reserve's debit and the user's credit; commit. The balance reported is
      the locked balance plus the amount. */
  function ExecuteDeposit(s: State, userId: int, req: OperationRequest, fault: Option<Step>)
    : (r: (Result<Committed, Error>, State))
    requires WellFormed(s) && req.idempotencyKey !in s.keys
    ensures r.0.Err? ==> r.1 == s
    ensures r.0.Ok? ==>
              && userId in s.owners && s.reserve.Some?
              && r.0.value.txnId == NextTransactionId(s)
              && r.1 == PostDoubleEntry(s, req.idempotencyKey, req.reference, KindDeposit,
                                        s.reserve.value, s.owners[userId], req.amount)
              && r.0.value.balance == s.balances[s.owners[userId]] + req.amount
              && r.0.value.balance == r.1.balances[s.owners[userId]]
    ensures fault == None ==> (r.0.Ok? <==> userId in s.owners && s.reserve.Some?)
    ensures fault == None && userId !in s.owners ==> r.0 == Err(Sentinel(ServicePkg, AccountNotFound))
  {
    if FailsAt(fault, Begin) then (Err(Wrapped("failed to begin transaction", DbFailure)), s)
    else if FailsAt(fault, UserLookup) then (Err(DbFailure), s)
    else if userId !in s.owners then (Err(Sentinel(ServicePkg, AccountNotFound)), s)
    else if FailsAt(fault, ReserveLookup) then (Err(Wrapped("reserve account not found", DbFailure)), s)
    else if s.reserve.None? then (Err(Wrapped("reserve account not found", NoRows)), s)
    else if WriteFailure(fault).Some? then (Err(WriteFailure(fault).value), s)
    else
      var user := s.owners[userId];
      var s' := PostDoubleEntry(s, req.idempotencyKey, req.reference, KindDeposit, s.reserve.value, user, req.amount);
      (Ok(Committed(NextTransactionId(s), s.balances[user] + req.amount)), s')
  }

  /** `executeWithdraw`: lock the user's row and refuse a short balance before
      anything is written; then lock the reserve, post the user's debit and the
      reserve's credit, commit. The balance reported is the locked balance
      minus the amount. */
  function ExecuteWithdraw(s: State, userId: int, req: OperationRequest, fault: Option<Step>)
    : (r: (Result<Committed, Error>, State))
    requires WellFormed(s) && req.idempotencyKey !in s.keys
    ensures r.0.Err? ==> r.1 == s
    ensures r.0.Ok? ==>
              && userId in s.owners && s.reserve.Some?
              && s.balances[s.owners[userId]] >= req.amount
              && r.0.value.txnId == NextTransactionId(s)
              && r.1 == PostDoubleEntry(s, req.idempotencyKey, req.reference, KindWithdraw,
                                        s.owners[userId], s.reserve.value, req.amount)
              && r.0.value.balance == s.balances[s.owners[userId]] - req.amount
              && r.0.value.balance == r.1.balances[s.owners[userId]]
              && r.0.value.balance >= 0
    ensures fault == None ==>
              (r.0.Ok? <==> userId in s.owners && s.balances[s.owners[userId]] >= req.amount && s.reserve.Some?)
    ensures !FailsAt(fault, Begin) && !FailsAt(fault, UserLookup) && userId in s.owners
              && s.balances[s.owners[userId]] < req.amount ==>
              r.0 == Err(Sentinel(ServicePkg, InsufficientBalance))
  {
    if FailsAt(fault, Begin) then (Err(Wrapped("failed to begin transaction", DbFailure)), s)
    else if FailsAt(fault, UserLookup) then (Err(DbFailure), s)
    else if userId !in s.owners then (Err(Sentinel(ServicePkg, AccountNotFound)), s)
    else if s.balances[s.owners[userId]] < req.amount then (Err(Sentinel(ServicePkg, InsufficientBalance)), s)
    else if FailsAt(fault, ReserveLookup) then (Err(Wrapped("reserve account not found", DbFailure)), s)
    else if s.reserve.None? then (Err(Wrapped("reserve account not found", NoRows)), s)
    else if WriteFailure(fault).Some? then (Err(WriteFailure(fault).value), s)
    else
      var user := s.owners[userId];
      var s' := PostDoubleEntry(s, req.idempotencyKey, req.reference, KindWithdraw, user, s.reserve.value, req.amount);
      (Ok(Committed(NextTransactionId(s), s.balances[user] - req.amount)), s')
  }

  /** `Deposit`. */
  function Deposit(s: State, userId: int, req: OperationRequest, fault: Option<Step>): (r: Reply)
    requires WellFormed(s)
    // The key is checked first, before the amount and before any lookup.
    ensures req.idempotencyKey == "" ==> r == Reply(Err(InvalidKey), s)
    // The amount is checked next, before the key is looked up.
    ensures req.idempotencyKey != "" && ValidateDepositAmount(req.amount).Some? ==>
              r == Reply(Err(ValidateDepositAmount(req.amount).value), s)
    // A known key returns its transaction and writes nothing.
    ensures req.idempotencyKey != "" && req.idempotencyKey in s.keys && ValidateDepositAmount(req.amount).None?
              && fault == None && userId in s.owners ==>
              r == Reply(Ok(TransactionResponse(s.keys[req.idempotencyKey], StatusPosted,
                                                s.balances[s.owners[userId]], req.reference, true)), s)
    ensures req.idempotencyKey in s.keys ==> r.after == s
    // Only a fresh key with a valid amount writes, and it writes one balanced pair.
    ensures r.after != s ==>
              && req.idempotencyKey != "" && req.idempotencyKey !in s.keys
              && ValidateDepositAmount(req.amount).None?
              && userId in s.owners && s.reserve.Some?
              && r.after == PostDoubleEntry(s, req.idempotencyKey, req.reference, KindDeposit,
                                            s.reserve.value, s.owners[userId], req.amount)
    // A new posting reports the balance the ledger now holds.
    ensures r.result.Ok? && !r.result.value.replayed ==>
              && userId in s.owners
              && r.result.value.transactionId == NextTransactionId(s)
              && r.result.value.status == StatusPosted
              && r.result.value.balance == s.balances[s.owners[userId]] + req.amount
              && r.result.value.balance == r.after.balances[s.owners[userId]]
    // Without a failure, a fresh key with a valid amount for a user who has an
    // account commits: the reply is the new transaction unless the balance it
    // leaves is negative, which the sanity check reports after the commit.
    ensures req.idempotencyKey != "" && req.idempotencyKey !in s.keys && ValidateDepositAmount(req.amount).None?
              && fault == None && userId in s.owners && s.reserve.Some? ==>
              && r.after == PostDoubleEntry(s, req.idempotencyKey, req.reference, KindDeposit,
                                            s.reserve.value, s.owners[userId], req.amount)
              && (s.balances[s.owners[userId]] + req.amount >= 0 ==> r.result.Ok? && !r.result.value.replayed)
              && (s.balances[s.owners[userId]] + req.amount < 0 ==> r.result == Err(NegativeBalanceDetected))
    // Every error other than the post-commit sanity check leaves the ledger as it was.
    ensures r.result.Err? && r.result.error != NegativeBalanceDetected ==> r.after == s
    // With user balances non-negative the sanity check never fires.
    ensures Solvent(s) ==> r.result != Err(NegativeBalanceDetected)
  {
    var key := req.idempotencyKey;
    if key == "" then Reply(Err(InvalidKey), s)
    else if ValidateDepositAmount(req.amount).Some? then Reply(Err(ValidateDepositAmount(req.amount).value), s)
    else if FailsAt(fault, IdempotencyCheck) then Reply(Err(Wrapped("idempotency check failed", DbFailure)), s)
    else if key in s.keys then Reply(IdempotentResponse(s, s.keys[key], userId, req.reference, fault), s)
    else
      var (outcome, s') := ExecuteDeposit(s, userId, req, fault);
      if outcome.Err? then Reply(Err(outcome.error), s)
      else if outcome.value.balance < 0 then Reply(Err(NegativeBalanceDetected), s')
      else Reply(Ok(TransactionResponse(outcome.value.txnId, StatusPosted, outcome.value.balance, req.reference, false)), s')
  }

  /** `Withdraw`. */
  function Withdraw(s: State, userId: int, req: OperationRequest, fault: Option<Step>): (r: Reply)
    requires WellFormed(s)
    ensures req.idempotencyKey == "" ==> r == Reply(Err(InvalidKey), s)
    ensures req.idempotencyKey != "" && ValidateWithdrawAmount(req.amount).Some? ==>
              r == Reply(Err(ValidateWithdrawAmount(req.amount).value), s)
    ensures req.idempotencyKey != "" && req.idempotencyKey in s.keys && ValidateWithdrawAmount(req.amount).None?
              && fault == None && userId in s.owners ==>
              r == Reply(Ok(TransactionResponse(s.keys[req.idempotencyKey], StatusPosted,
                                                s.balances[s.owners[userId]], req.reference, true)), s)
    ensures req.idempotencyKey in s.keys ==> r.after == s
    // A short balance is refused before any transaction or posting exists.
    ensures req.idempotencyKey != "" && req.idempotencyKey !in s.keys && ValidateWithdrawAmount(req.amount).None?
              && fault == None && userId in s.owners && s.balances[s.owners[userId]] < req.amount ==>
              r == Reply(Err(Sentinel(ServicePkg, InsufficientBalance)), s)
    ensures r.after != s ==>
              && req.idempotencyKey != "" && req.idempotencyKey !in s.keys
              && ValidateWithdrawAmount(req.amount).None?
              && userId in s.owners && s.reserve.Some?
              && s.balances[s.owners[userId]] >= req.amount
              && r.after == PostDoubleEntry(s, req.idempotencyKey, req.reference, KindWithdraw,
                                            s.owners[userId], s.reserve.value, req.amount)
    ensures r.result.Ok? && !r.result.value.replayed ==>
              && userId in s.owners
              && r.result.value.transactionId == NextTransactionId(s)
              && r.result.value.status == StatusPosted
              && r.result.value.balance == s.balances[s.owners[userId]] - req.amount
              && r.result.value.balance == r.after.balances[s.owners[userId]]
              && r.result.value.balance >= 0
    // Without a failure, a fresh key with a valid amount that the user's
    // balance covers commits.
    ensures req.idempotencyKey != "" && req.idempotencyKey !in s.keys && ValidateWithdrawAmount(req.amount).None?
              && fault == None && userId in s.owners && s.reserve.Some?
              && s.balances[s.owners[userId]] >= req.amount ==>
              && r.result.Ok? && !r.result.value.replayed
              && r.after == PostDoubleEntry(s, req.idempotencyKey, req.reference, KindWithdraw,
                                            s.owners[userId], s.reserve.value, req.amount)
    ensures r.result.Err? ==> r.after == s
    // The negative-balance branch is unreachable: the locked balance covers the amount.
    ensures r.result != Err(NegativeBalanceDetected)
  {
    var key := req.idempotencyKey;
    if key == "" then Reply(Err(InvalidKey), s)
    else if ValidateWithdrawAmount(req.amount).Some? then Reply(Err(ValidateWithdrawAmount(req.amount).value), s)
    else if FailsAt(fault, IdempotencyCheck) then Reply(Err(Wrapped("idempotency check failed", DbFailure)), s)
    else if key in s.keys then Reply(IdempotentResponse(s, s.keys[key], userId, req.reference, fault), s)
    else
      var (outcome, s') := ExecuteWithdraw(s, userId, req, fault);
      if outcome.Err? then Reply(Err(outcome.error), s)
      else if outcome.value.balance < 0 then Reply(Err(NegativeBalanceDetected), s')
      else Reply(Ok(TransactionResponse(outcome.value.txnId, StatusPosted, outcome.value.balance, req.reference, false)), s')
  }

  /** Deposits through this service keep every ledger invariant. */
  lemma DepositPreservesValid(s: State, userId: int, req: OperationRequest, fault: Option<Step>)
    requires Valid(s)
    ensures Valid(Deposit(s, userId, req, fault).after)
  {
    var r := Deposit(s, userId, req, fault);
    if r.after != s {
      PostDoubleEntryPreservesValid(s, req.idempotencyKey, req.reference, KindDeposit,
                                    s.reserve.value, s.owners[userId], req.amount);
    }
  }

  /** Withdrawals through this service keep every ledger invariant. */
  lemma WithdrawPreservesValid(s: State, userId: int, req: OperationRequest, fault: Option<Step>)
    requires Valid(s)
    ensures Valid(Withdraw(s, userId, req, fault).after)
  {
    var r := Withdraw(s, userId, req, fault);
    if r.after != s {
      PostDoubleEntryPreservesValid(s, req.idempotencyKey, req.reference, KindWithdraw,
                                    s.owners[userId], s.reserve.value, req.amount);
    }
  }

  /** Retrying a deposit that posted returns the same transaction id and
      balance and posts nothing more. */
  lemma DepositRetryIsReplay(s: State, userId: int, req: OperationRequest)
    requires WellFormed(s)
    requires Deposit(s, userId, req, None).result.Ok?
    ensures var first := Deposit(s, userId, req, None);
            WellFormed(first.after) &&
            var again := Deposit(first.after, userId, req, None);
            again.after == first.after
            && again.result.Ok? && again.result.value.replayed
            && again.result.value.transactionId == first.result.value.transactionId
            && again.result.value.balance == first.result.value.balance
  {
    var first := Deposit(s, userId, req, None);
    if first.after != s {
      PostDoubleEntryKeepsWellFormed(s, req.idempotencyKey, req.reference, KindDeposit,
                                     s.reserve.value, s.owners[userId], req.amount);
    }
  }

  /** Retrying a withdrawal that posted returns the same transaction and
      balance, and takes no more money. */
  lemma WithdrawRetryIsReplay(s: State, userId: int, req: OperationRequest)
    requires WellFormed(s)
    requires Withdraw(s, userId, req, None).result.Ok?
    ensures var first := Withdraw(s, userId, req, None);
            WellFormed(first.after) &&
            var again := Withdraw(first.after, userId, req, None);
            again.after == first.after
            && again.result.Ok? && again.result.value.replayed
            && again.result.value.transactionId == first.result.value.transactionId
            && again.result.value.balance == first.result.value.balance
  {
    var first := Withdraw(s, userId, req, None);
    if first.after != s {
      PostDoubleEntryKeepsWellFormed(s, req.idempotencyKey, req.reference, KindWithdraw,
                                     s.owners[userId], s.reserve.value, req.amount);
    }
  }

  /** History paging as written: a page below 1 becomes 1, a page size
      outside 1..100 becomes 20, and the offset (page - 1) * perPage is a
      64-bit product, which wraps for a large enough page. */
  function NormalizePageAsWritten(page: int, perPage: int): (p: Page)
    requires InRange(page) && InRange(perPage)
    ensures p.page == (if page < 1 then 1 else page)
    ensures p.perPage == (if 1 <= perPage <= 100 then perPage else 20)
    ensures InRange(p.offset)
    ensures p.offset == Wrap((p.page - 1) * p.perPage)
    ensures (p.offset - (p.page - 1) * p.perPage) % Modulus64 == 0
  {
    var pg := if page < 1 then 1 else page;
    var pp := if perPage < 1 || perPage > 100 then 20 else perPage;
    Page(pg, pp, Wrap((pg - 1) * pp))
  }

  /** A page of 10^17 at 100 rows a page wraps to a negative offset. */
  lemma PageOffsetOverflows()
    ensures NormalizePageAsWritten(100_000_000_000_000_000, 100).offset < 0
  {
  }

  /** History paging with the offset held at the 64-bit maximum rather than
      wrapped: the offset skips exactly the earlier pages whenever that count
      fits, and is never negative. */
  function NormalizePage(page: int, perPage: int): (p: Page)
    requires InRange(page) && InRange(perPage)
    ensures p.page >= 1 && 1 <= p.perPage <= 100
    ensures page >= 1 ==> p.page == page
    ensures page < 1 ==> p.page == 1
    ensures 1 <= perPage <= 100 ==> p.perPage == perPage
    ensures !(1 <= perPage <= 100) ==> p.perPage == 20
    ensures 0 <= p.offset <= MaxInt64
    ensures (p.page - 1) * p.perPage <= MaxInt64 ==> p.offset == (p.page - 1) * p.perPage
  {
    var pg := if page < 1 then 1 else page;
    var pp := if perPage < 1 || perPage > 100 then 20 else perPage;
    var skipped := (pg - 1) * pp;
    assert skipped >= 0 by { NonNegativeProduct(pg - 1, pp); }
    Page(pg, pp, if skipped > MaxInt64 then MaxInt64 else skipped)
  }

  lemma NonNegativeProduct(a: int, b: int)
    requires a >= 0 && b >= 0
    ensures a * b >= 0
  {
  }

  /** Wherever the 64-bit product does not overflow, the two agree. */
  lemma PagingAgreesWithoutOverflow(page: int, perPage: int)
    requires InRange(page) && InRange(perPage)
    requires var p := NormalizePage(page, perPage); (p.page - 1) * p.perPage <= MaxInt64
    ensures NormalizePageAsWritten(page, perPage) == NormalizePage(page, perPage)
  {
  }

  /** Normalising is idempotent, and consecutive pages tile the history: each
      starts where the previous one ends. */
  lemma PagingTilesHistory(page: int, perPage: int)
    requires InRange(page) && InRange(perPage)
    ensures var p := NormalizePage(page, perPage); NormalizePage(p.page, p.perPage) == p
    ensures var p := NormalizePage(page, perPage);
            p.page < MaxInt64 && p.page * p.perPage <= MaxInt64 ==>
            NormalizePage(p.page + 1, p.perPage).offset == p.offset + p.perPage
  {
  }
}

=== FILE: wrappers.dfy ===
/** Option and Result, the failure-carrying values the wallet model returns. */
module Wrappers {

  /** A value that may be absent: the model of Go's nullable columns and nil references. */
  datatype Option<+T> = None | Some(value: T)

  /** Either a value or an error: the model of Go's `(value, error)` return pairs. */
  datatype Result<+T, +E> = Ok(value: T) | Err(error: E)
}
